=== FILE: README.md ===
# ddu-ui-ff preview controller, modelled in Dafny

`ddu-ui-ff` is the fuzzy-finder list UI of the ddu plugin for Vim and
Neovim. Its preview controller, the class `PreviewUi`, shows the item
under the cursor in a separate preview window. It keeps five fields
across calls:

- the preview window handle, `previewWinId` (-1 when there is none);
- `terminalBufnr`;
- the action data last previewed, `previewedTarget`;
- the line match recorded per window, `matchIds`;
- the buffers it has shown, `previewBufnrs`.

`preview` toggles the preview off when the same target is requested again.
It returns `None` when there is nothing to show. Otherwise it renders the
previewer: a terminal running a command, or a file, buffer or scratch
lines, whose item line is then highlighted. Then it moves the cursor to
the item's line, records what it showed and gives the focus back to the
caller's window.
`close` closes the preview window and deletes the preview buffers that are
still listed.

The project has seven files:

- `wrappers.dfy`: `Option` and `Result`.
- `json.dfy`: `JSON.stringify` on integers, strings, booleans, null,
  arrays and objects, with members in insertion order. A parser proves it
  injective, so the toggle test "same serialised action" is exactly "same
  action". It is also sensitive to member order.
- `text.dfy`: JavaScript's `split("\n")`, with its inverse `Join`.
- `editor.dfy`: the editor as a value, with one function per editor
  command the controller issues. The value holds:
  - buffers (name, lines, listed flag, buffer type, syntax) and the
    buffer-name index;
  - windows (shown buffer, cursor, line matches);
  - the current window;
  - a supply of fresh ids;
  - an append-only log of drawn highlight spans.
- `preview_spec.dfy`: every operation of the controller as a pure
  transition `(Ui, Editor) -> Step(outcome, Ui, Editor)`.
- `preview_ui.dfy`: the class `PreviewUi` with the five fields updated in
  place. Each method is proved to perform exactly the transition of
  `preview_spec.dfy`. The `close` sweep over `previewBufnrs` and the span
  loop of `highlight` are loops with invariants.
- `preview_laws.dfy`: what the controller promises, proved about the
  transitions.

The model follows the code of `denops/@ddu-ui-ff/preview.ts` as written:

- A new preview buffer always gets `buftype=nofile`, also for the
  `buffer` kind.
- `terminalBufnr` is only ever assigned -1. So the deletion of the old
  terminal buffer never runs, and every terminal preview leaves its buffer
  listed and running until `close` (`TerminalBufnrStaysUnset`,
  `TerminalPreviewsAccumulate`).

Behaviour of the code as written that the lemmas exhibit:

- With a recorded handle whose window the user has already closed,
  `close` closes the caller's window (`CloseStaleHandle`).
- With a recorded handle whose window the user has already closed, a
  preview acts on the caller's window: `win_gotoid` fails, `edit` (or
  `enew` and `termopen`) replaces the caller's buffer, and `matchaddpos`
  puts the line match in the caller's window, recorded under the dead
  handle, so the next highlight fails (`StaleHandlePreview`). From then on
  every buffer preview fails in `matchdelete` and keeps the dead handle
  and its match, until `close` (`StaleHandleStuck`).
- A file previewer whose `expr` designates no buffer gets the buffer name
  `ddu-ff:`, whatever its `path`. All such previews share that one buffer,
  so a second one only switches to it and shows the lines of the first
  (`ExprNameKey`).
- A preview without a line keeps the previous, now deleted, match id. The
  next `highlight` in that window then fails in `matchdelete`
  (`StaleMatchId`).

Many laws about rendering hold for a handle that is unset or names a live
window (`WindowReachable`). Every `preview` and `close` keeps that, together
with the editor's consistency and the single line match per window
(`Inv`, `PreviewInv`, `CloseInv`, `RunInv`). Under it, every `preview` and
`close` also keeps the controller at one preview window (`OnePreviewWindow`,
`PreviewOne`, `CloseOne`, `RunOne`). Two things outside the controller
break the invariant: closing the preview window behind its back, and a
line match it did not add (a user's `:match`, or a plugin's), which is
why `InitialInv` starts from an editor without matches.

## Model

| member | source | states |
|---|---|---|
| PreviewController.PreviewUi.constructor | denops/@ddu-ui-ff/preview.ts:16-21 | a new controller has no window (-1), no terminal (-1), an empty target `{}`, no match ids and no tracked buffers |
| PreviewController.PreviewUi.Close | denops/@ddu-ui-ff/preview.ts:23-38 | the fields and the editor after the call are exactly `PreviewSpec.Close` of the fields before |
| PreviewController.Sweep | denops/@ddu-ui-ff/preview.ts:33-37 | the loop over the tracked buffers, in order, deletes each one still listed; the result is `DeleteListed` of the tracked set |
| PreviewController.PreviewUi.Preview | denops/@ddu-ui-ff/preview.ts:40-91 | outcome, fields and editor are exactly `PreviewSpec.Preview` of the fields before |
| PreviewController.PreviewUi.PreviewTerminal | denops/@ddu-ui-ff/preview.ts:93-132 | outcome, fields and editor are exactly `PreviewSpec.PreviewTerminal` of the fields before |
| PreviewController.PreviewUi.PreviewBuffer | denops/@ddu-ui-ff/preview.ts:134-177 | outcome, fields and editor are exactly `PreviewSpec.PreviewBuffer` of the fields before |
| PreviewController.PreviewUi.Highlight | denops/@ddu-ui-ff/preview.ts:231-279 | outcome, fields and editor are exactly `PreviewSpec.Highlight` of the fields before |
| PreviewController.DrawSpans | denops/@ddu-ui-ff/preview.ts:262-278 | the span loop draws one span call per highlight on the given buffer, in order, and changes nothing else |
| PreviewSpec.DeleteListedStep | denops/@ddu-ui-ff/preview.ts:34-36 | one iteration of the sweep (`bdelete!` if listed) extends the deletion by one tracked buffer, also for a buffer met twice |
| PreviewSpec.BufferName | denops/@ddu-ui-ff/preview.ts:179-196 | every preview buffer name starts with `ddu-ff:`, so it is never empty |
| PreviewSpec.Resolve | denops/@ddu-ui-ff/preview.ts:203-206 | a resolved `expr` names an existing buffer: a number resolves iff that buffer exists, and in a consistent editor a name resolves iff some buffer has exactly that name, which is the one found |
| PreviewSpec.ExprName | denops/@ddu-ui-ff/preview.ts:186-190 | `bufname(expr)`: a non-empty name is returned iff a buffer has it (in a consistent editor), otherwise ""; a number of an existing buffer gives that buffer's name |
| PreviewSpec.ExprListed | denops/@ddu-ui-ff/preview.ts:203 | `buflisted(expr)` agrees with `buflisted` of the buffer number, or, in a consistent editor, with `buflisted` of the name |
| PreviewSpec.Add | denops/@ddu-ui-ff/preview.ts:86 | `add` on the tracked buffers: the members are the old ones plus the new buffer, the old order is a prefix, and at most one element is appended |
| PreviewSpec.DeleteListed | denops/@ddu-ui-ff/preview.ts:33-37 | deleting the tracked listed buffers changes only buffers, keeps every buffer number and name, and keeps the editor consistent |
| PreviewSpec.Close | denops/@ddu-ui-ff/preview.ts:23-38 | `close` resets a positive handle to -1 and no other field (the tracked buffers stay tracked); buffer numbers and names are kept, and the editor stays consistent |
| PreviewSpec.IsToggle | denops/@ddu-ui-ff/preview.ts:51-55 | the toggle test holds iff the handle is positive and the action equals the previewed target, because the serialisation is injective |
| PreviewSpec.Rejected | denops/@ddu-ui-ff/preview.ts:140-145 | a `nofile` previewer without lines, or a `buffer` previewer with neither `expr` nor `path`, is refused (its effect is stated by `PreviewSpec.PreviewBuffer` and `NothingToShow`) |
| PreviewSpec.Contents | denops/@ddu-ui-ff/preview.ts:198-219 | only an unreadable `path` fails, with that path; a `nofile` previewer gives its own lines |
| PreviewSpec.FocusWindow | denops/@ddu-ui-ff/preview.ts:98-110 | opening or refocusing the preview window sets no field but the handle, keeps an existing handle, and draws or renames nothing |
| PreviewSpec.OpenWindow | denops/@ddu-ui-ff/preview.ts:98-104 | opening the preview window sets no field but the handle, which in a consistent editor is positive, names no earlier window, and is the new current window; exactly one window is added |
| PreviewSpec.PreviewTerminal | denops/@ddu-ui-ff/preview.ts:93-132 | a terminal render always persists and sets no field but the handle and `terminalBufnr`, which is kept or reset to -1 |
| PreviewSpec.Highlight | denops/@ddu-ui-ff/preview.ts:231-279 | `highlight` never answers `None`, sets no field but `matchIds`, and when it fails changes nothing |
| PreviewSpec.Fill | denops/@ddu-ui-ff/preview.ts:161-170 | filling the new buffer keeps every window, the current window, the names, the span log, every window's matches and the editor's consistency |
| PreviewSpec.PreviewBuffer | denops/@ddu-ui-ff/preview.ts:134-177 | `previewBuffer` answers `None` iff the previewer is refused, and then changes nothing; it sets no field but the handle and `matchIds` |
| PreviewSpec.Render | denops/@ddu-ui-ff/preview.ts:72-78 | rendering by kind: a terminal always persists, the result is `None` iff the previewer is refused, and the target and tracked buffers are not touched |
| PreviewSpec.Jump | denops/@ddu-ui-ff/preview.ts:221-229 | `jump` changes no buffer, window set, current window or match, and keeps the editor consistent |
| PreviewSpec.Preview | denops/@ddu-ui-ff/preview.ts:40-91 | the previewed target becomes the action on `Persist`; on any other outcome the target and the tracked buffers are unchanged; `terminalBufnr` is kept or -1 |
| PreviewLaws.CloseIdempotent | denops/@ddu-ui-ff/preview.ts:23-38 | closing twice leaves the same controller and editor as closing once |
| PreviewLaws.CloseWindowPart | denops/@ddu-ui-ff/preview.ts:24-32 | a positive handle becomes -1 and no other field changes; a live preview window is the only window closed, and a live caller window other than it is current again; with no handle, no window changes |
| PreviewLaws.CloseStaleHandle | denops/@ddu-ui-ff/preview.ts:24-30 | with a handle whose window is gone, the caller's current window is the one closed |
| PreviewLaws.StaleHandlePreview | denops/@ddu-ui-ff/preview.ts:155-176 | as written, with a recorded handle whose window is gone and no match recorded, a scratch preview with a line persists in the caller's window: it shows the `ddu-ff:` buffer holding the contents and the new match, recorded under the dead handle, and the next highlight, of any previewer, fails |
| PreviewLaws.StaleHandleStuck | denops/@ddu-ui-ff/preview.ts:140-176 | as written, with a match recorded under a dead handle, every buffer preview that is not refused fails and leaves the controller state unchanged and the handle dead, so the next one fails as well |
| PreviewLaws.CloseSweep | denops/@ddu-ui-ff/preview.ts:33-37 | a buffer is listed afterwards iff it was listed and not tracked; untracked or unlisted buffers are unchanged; no buffer disappears or is renamed |
| PreviewLaws.ToggleTurnsOff | denops/@ddu-ui-ff/preview.ts:51-58 | requesting the shown target returns `None` with exactly the state of `close`, whatever the previewer, and the handle ends at -1 |
| PreviewLaws.NothingToShow | denops/@ddu-ui-ff/preview.ts:60-81 | apart from the toggle, the result is `None` iff there is no previewer or it is rejected (`nofile` without contents, `buffer` without `expr` and `path`), and then neither the controller nor the editor changes |
| PreviewLaws.PersistRecords | denops/@ddu-ui-ff/preview.ts:83-90 | for a consistent editor with a current window and a handle that is unset or live: on `Persist`, the target is the action, the tracked buffers gain the buffer shown in the live preview window, and the caller's window is current again |
| PreviewLaws.WindowHandle | denops/@ddu-ui-ff/preview.ts:98-110 | for a handle that is unset or live, on both render paths and whatever the outcome: an existing handle is kept and the set of windows is unchanged; with no handle exactly one window, the newly recorded one, is added; the handle stays unset or live; a kept render leaves the preview window current |
| PreviewLaws.TerminalWindow | denops/@ddu-ui-ff/preview.ts:93-132 | for a handle that is unset or live: a terminal render always persists, keeps an existing handle, and leaves the preview window current under a positive handle |
| PreviewLaws.BufferWindow | denops/@ddu-ui-ff/preview.ts:148-157 | for a handle that is unset or live and a previewer that is not refused: a buffer render keeps an existing handle, leaves it naming a live window, and sets no field but the handle and `matchIds`; when it does not fail it persists with the preview window current and no window closed |
| PreviewLaws.FocusWindowFacts | denops/@ddu-ui-ff/preview.ts:148-157 | for a handle that is unset or live: the preview window is current and recorded after opening or refocusing; existing buffers, names and windows are kept |
| PreviewLaws.PrefixInjective | denops/@ddu-ui-ff/preview.ts:185-194 | the `ddu-ff:` prefix determines the rest of the name |
| PreviewLaws.PreviewNameKey | denops/@ddu-ui-ff/preview.ts:179-196 | scratch previews share a buffer name iff their words agree, file previews without `expr` iff their paths agree, independently of the editor |
| PreviewLaws.ExprNameKey | denops/@ddu-ui-ff/preview.ts:184-192 | in a consistent editor, a file previewer whose `expr` designates no buffer is named exactly `ddu-ff:`, whatever its path; a resolving `expr` gives `ddu-ff:` and that buffer's name |
| PreviewLaws.ContentsSources | denops/@ddu-ui-ff/preview.ts:198-219 | contents are a scratch previewer's own lines, the live lines of a listed `expr` buffer, else the file split on newlines (joining back to the file text, one more line than newlines), a failure for an unreadable file, else nothing |
| PreviewLaws.ContentsAfterEdit | denops/@ddu-ui-ff/preview.ts:158-160 | for a handle that is unset or live and an `expr` that designates a buffer: contents read after `edit` of the preview name are those before the preview |
| PreviewLaws.EditKeepsOthers | denops/@ddu-ui-ff/preview.ts:159 | `edit name` changes no buffer of another name and forgets no buffer name |
| PreviewLaws.FreshBufferFilled | denops/@ddu-ui-ff/preview.ts:158-170 | for a handle that is unset or live and an `expr` that designates a buffer: an unlisted name gives a listed `nofile` buffer of that name holding the contents, with the previewer's syntax (or detected), shown in the preview window and found under the name afterwards; an unreadable file fails |
| PreviewLaws.ListedBufferReused | denops/@ddu-ui-ff/preview.ts:171-175 | for a handle that is unset or live: a listed name is only switched to, and no buffer is refilled or changed; on `Persist` the preview window shows the named buffer, the spans are drawn on it again, and with a line the old match is replaced by one on that line recorded for the window |
| PreviewLaws.FillFacts | denops/@ddu-ui-ff/preview.ts:161-170 | filling changes only the current buffer: type `nofile`, the given lines, the syntax by `syntax` or `filetype detect`, name and listing kept |
| PreviewLaws.JumpCursor | denops/@ddu-ui-ff/preview.ts:221-229 | a positive line puts the cursor on it, clamped to the buffer; no line changes nothing; buffers, windows and matches are untouched |
| PreviewLaws.HighlightFails | denops/@ddu-ui-ff/preview.ts:241-244 | `highlight` fails iff a positive match id is recorded for the window but no longer exists there; then nothing changes |
| PreviewLaws.HighlightMatchIds | denops/@ddu-ui-ff/preview.ts:239-278 | on success, `matchIds[win]` becomes the new match id when there is a line and is otherwise kept, other entries and fields untouched; spans appended in order; buffers and windows unchanged |
| PreviewLaws.HighlightReplacesMatch | denops/@ddu-ui-ff/preview.ts:241-261 | the old match is gone from the preview window, and a new one sits on `lineNr` under the recorded id |
| PreviewLaws.StaleMatchId | denops/@ddu-ui-ff/preview.ts:241-261 | after a highlight without a line, the next highlight in that window fails, whatever it shows |
| PreviewLaws.ClearedShape | denops/@ddu-ui-ff/preview.ts:242-244 | deleting the old match touches only that window's matches |
| PreviewLaws.HighlightWindow | denops/@ddu-ui-ff/preview.ts:231-279 | `highlight` keeps windows, buffers, names and every field but `matchIds` |
| PreviewLaws.OverlayKept | denops/@ddu-ui-ff/preview.ts:20 | editor steps that keep surviving windows' matches keep "every match is the recorded one" |
| PreviewLaws.HighlightOverlay | denops/@ddu-ui-ff/preview.ts:239-261 | `highlight` in the current preview window keeps every window's match the recorded one |
| PreviewLaws.CloseOverlay | denops/@ddu-ui-ff/preview.ts:23-38 | `close` keeps every window's match the recorded one |
| PreviewLaws.RenderOverlay | denops/@ddu-ui-ff/preview.ts:93-177 | rendering keeps every window's match the recorded one |
| PreviewLaws.FreshOverlay | denops/@ddu-ui-ff/preview.ts:158-176 | filling a new buffer and highlighting keeps every window's match the recorded one |
| PreviewLaws.PreviewOverlay | denops/@ddu-ui-ff/preview.ts:40-91 | for a consistent editor and a handle that is unset or live, one `preview` keeps every window's match the recorded one |
| PreviewLaws.InitialInv | denops/@ddu-ui-ff/preview.ts:16-21 | a new controller over a consistent editor without line matches is in the invariant (consistent editor, unset or live handle, one recorded match per window) |
| PreviewLaws.CloseInv | denops/@ddu-ui-ff/preview.ts:23-38 | `close` keeps the invariant |
| PreviewLaws.PreviewInv | denops/@ddu-ui-ff/preview.ts:40-91 | `preview` keeps the invariant, whatever its outcome |
| PreviewLaws.RunInv | denops/@ddu-ui-ff/preview.ts:23-91 | any sequence of `preview` and `close` calls keeps the invariant, so every window carries at most the one line match the controller recorded for it |
| PreviewLaws.CloseOne | denops/@ddu-ui-ff/preview.ts:23-32 | `close` leaves no window beyond the caller's windows |
| PreviewLaws.PreviewOne | denops/@ddu-ui-ff/preview.ts:40-91 | under the invariant, `preview` keeps every window one of the caller's or the recorded preview window |
| PreviewLaws.RunOne | denops/@ddu-ui-ff/preview.ts:23-91 | any sequence of `preview` and `close` calls keeps the controller at most one preview window beyond the caller's windows |
| PreviewLaws.TerminalBufnrStaysUnset | denops/@ddu-ui-ff/preview.ts:18 | `terminalBufnr` starts at -1 and stays -1 through every `preview` and `close` |
| PreviewLaws.TerminalBuffer | denops/@ddu-ui-ff/preview.ts:98-118 | a terminal preview shows a new listed buffer running the commands, and no other buffer changes |
| PreviewLaws.TerminalPreview | denops/@ddu-ui-ff/preview.ts:40-132 | a terminal `preview` persists, shows a new terminal buffer, tracks it, keeps the old tracked buffers and gives the focus back |
| PreviewLaws.TerminalPreviewsAccumulate | denops/@ddu-ui-ff/preview.ts:119-130 | after a second terminal preview, the first terminal buffer is still listed and running, and it is tracked for `close` |
| Json.Stringify | denops/@ddu-ui-ff/preview.ts:54 | `JSON.stringify` of an action value; `StringifyInjective` and `ValueRoundTrip` state its properties |
| Json.StringifyInjective | denops/@ddu-ui-ff/preview.ts:54 | two action values serialise equally iff they are equal |
| Json.ValueRoundTrip | denops/@ddu-ui-ff/preview.ts:54 | parsing the serialisation of a value, followed by nothing or by a non-digit, gives the value and the rest back |
| Json.MemberOrderMatters | denops/@ddu-ui-ff/preview.ts:54 | any two objects with the same members in another order serialise differently |
| Text.Split | denops/@ddu-ui-ff/preview.ts:212 | `split("\n")` gives at least one line and no line holds the separator |
| Text.JoinSplit | denops/@ddu-ui-ff/preview.ts:212 | joining the split lines with newlines gives the text back |
| Text.SplitCount | denops/@ddu-ui-ff/preview.ts:212 | the split yields one more line than the text has newlines |
| Editor.WinGotoId | denops/@ddu-ui-ff/preview.ts:27-29 | focusing keeps every window's matches and the editor's consistency |
| Editor.WinGetId | denops/@ddu-ui-ff/preview.ts:25 | `win_getid()` names a live window or is 0; in a consistent editor with a current window it is that window, and positive |
| Editor.CloseWindow | denops/@ddu-ui-ff/preview.ts:28 | `close!` removes exactly the current window |
| Editor.OpenPreviewWindow | denops/@ddu-ui-ff/preview.ts:99-104 | opens a new current window, absent before, with no matches |
| Editor.Enew | denops/@ddu-ui-ff/preview.ts:108 | keeps the windows and the current one |
| Editor.Edit | denops/@ddu-ui-ff/preview.ts:159 | the current window shows a listed buffer of that name |
| Editor.SwitchBuffer | denops/@ddu-ui-ff/preview.ts:172 | no buffer changes; windows and the current one are kept |
| Editor.CurBuf | denops/@ddu-ui-ff/preview.ts:85 | `bufnr()` in a consistent editor with a current window is an existing buffer |
| Editor.BufListedName | denops/@ddu-ui-ff/preview.ts:147 | `buflisted(name)` through the name index holds iff some listed buffer has exactly that non-empty name, in a consistent editor |
| Editor.BufExists | denops/@ddu-ui-ff/preview.ts:120-123 | every listed buffer exists, and in a consistent editor an existing number is one already handed out |
| Editor.SetBufType | denops/@ddu-ui-ff/preview.ts:163 | only buffer `b` changes, and only its type, to the given one; windows, names and matches are kept |
| Editor.ReplaceLines | denops/@ddu-ui-ff/preview.ts:164 | only buffer `b` changes, and only its lines, to the given ones; windows, names and matches are kept |
| Editor.SetSyntax | denops/@ddu-ui-ff/preview.ts:165-169 | only the current buffer changes, and only its syntax, to the given one; windows, names and matches are kept |
| Editor.Termopen | denops/@ddu-ui-ff/preview.ts:111-118 | only the current buffer changes, and only its type, which becomes a terminal running the commands; windows, names and matches are kept |
| Editor.Bdelete | denops/@ddu-ui-ff/preview.ts:35 | the buffer is no longer listed; no buffer disappears, so `bufexists` answers as before |
| Editor.Cursor | denops/@ddu-ui-ff/preview.ts:224 | only the current window's cursor moves |
| Editor.MatchDelete | denops/@ddu-ui-ff/preview.ts:243 | succeeds iff the window exists and has that match |
| Editor.MatchAddPos | denops/@ddu-ui-ff/preview.ts:258-260 | adds to the current window a match on `line` under the id `next`, which no match of that window holds yet; other windows are unchanged and `next` grows |
| Editor.DrawSpan | denops/@ddu-ui-ff/preview.ts:265-275 | appends one span call to the log |

## Left out

- Previewer resolution (`denops.dispatch("ddu", "getPreviewer", ...)`) is a call into ddu itself. Its answer is an `Option<Previewer>` input of `Preview`.
- File reading and UTF-8 decoding (`Deno.readFileSync`, `TextDecoder`) are input. They are a map from path to decoded text, and a path the map lacks cannot be read. Only the split on newlines is modelled.
- Starting the terminal process (`termopen` / `term_start`) always succeeds. Its only effect is to make the current buffer a terminal running the commands.
- The Neovim/Vim host branch, the highlight namespace and `nvim_buf_clear_namespace` / `prop_clear` keep no controller state and are not modelled.
- `normal! zv` and `normal! zz` in `jump` (folds and scrolling) are not modelled. Only the cursor move is.
- `ddu#ui#ff#_preview_file` is not part of this model. It is modelled as opening a new window on a new empty buffer that becomes current.
- `ddu#ui#ff#_highlight` is not part of this model. Each call is an entry in an append-only span log.
- `batch` and the async interleaving of overlapping `preview` calls: the model is sequential.
- Editor.Bdelete: Vim's `bdelete!` also closes every window that shows the buffer. The model only unlists and unloads the buffer, so windows showing a swept buffer (a caller's window after a stale-handle preview) stay open in the model.
- PreviewSpec.Resolve: `bufname()` and `bufnr()` with a string `expr` match buffer names as file patterns (with `%` and `#` special). The model looks names up exactly.
- Editor errors other than `matchdelete` are not modelled: `close!` on the last window, `edit` of an unusable name and a failing `bdelete!` all succeed in the model. A failing `bdelete!` of the old terminal is caught and logged in `previewTerminal`; one in the `close` sweep is not caught.
- PreviewController.Sweep: in the source an error in one `bdelete!` of the sweep ends `close` with that error, with `previewWinId` already -1 and the remaining tracked buffers left listed. The model has no failing `bdelete!`, so its sweep always visits every tracked buffer.
- Which window Vim makes current after `close!` is not modelled: the model has no current window until a `win_gotoid` succeeds.
- `JSON.stringify` of floating-point numbers, `undefined` and JavaScript's ordering of integer-like object keys is not modelled. Action values are null, booleans, integers, strings, arrays and objects with members in insertion order.
- `previewBufnrs` is a JavaScript `Set`. It is modelled as a sequence in insertion order, to which `add` appends only new members; that is also the set's iteration order.
- A previewer field that is missing (`path`, `syntax`, `lineNr`, `contents`) is written as its falsy value ("" / 0 / empty), which the source treats the same way.

=== FILE: editor.dfy ===
/**
 * The editor behind the preview controller, reduced to the state the
 * controller reads and changes: buffers (with their names, lines, listed
 * flag, buffer type and syntax), windows (with the buffer each shows, its
 * cursor line and its line matches), the current window, a supply of fresh
 * ids, and a log of the highlight spans drawn.  Each function below is one
 * editor command or query the controller issues through the host
 * connection, reduced to its effect on that state; side effects on other
 * parts (the windows `bdelete!` closes, `bufname()`'s pattern matching)
 * are not modelled.
 */
module Editor {

  import opened Wrappers

  type WinId = int
  type BufNr = int

  datatype BufType = Normal | NoFile | Terminal(cmds: seq<string>)

  datatype Syntax = NoSyntax | Named(name: string) | Detected

  datatype Buffer = Buffer(name: string, lines: seq<string>, listed: bool, buftype: BufType, syntax: Syntax)

  /** A window: the buffer it shows, its cursor line, and its matches (match id to line). */
  datatype Window = Window(buf: BufNr, cursor: int, matches: map<int, int>)

  /** One highlight span of a previewer: group, name, row, column, width. */
  datatype Span = Span(group: string, name: string, row: int, col: int, width: int)

  /** A span drawn on a buffer. */
  datatype SpanCall = SpanCall(buf: BufNr, span: Span)

  /**
   * `cur` is the current window; after the current window is closed it
   * names no window until a `win_gotoid` succeeds.  Every id handed out
   * (buffer, window, match) is taken from `next` and is positive.
   */
  datatype Editor = Editor(
    bufs: map<BufNr, Buffer>,
    names: map<string, BufNr>,
    wins: map<WinId, Window>,
    cur: WinId,
    next: int,
    spans: seq<SpanCall>)

  /** The consistency Vim keeps between these parts. */
  ghost predicate Valid(ed: Editor)
  {
    && ed.next >= 1
    && (forall b :: b in ed.bufs ==> 1 <= b < ed.next)
    && (forall w :: w in ed.wins ==> 1 <= w < ed.next && ed.wins[w].buf in ed.bufs)
    && (forall w, m :: w in ed.wins && m in ed.wins[w].matches ==> 1 <= m < ed.next)
    && (forall n :: n in ed.names ==> ed.names[n] in ed.bufs && ed.bufs[ed.names[n]].name == n)
    && (forall b :: b in ed.bufs && ed.bufs[b].name != "" ==>
          ed.bufs[b].name in ed.names && ed.names[ed.bufs[b].name] == b)
  }

  /** Every window of `r` has the matches it had in `ed`; a new window has none. */
  ghost predicate MatchesKept(ed: Editor, r: Editor)
  {
    forall w :: w in r.wins ==> r.wins[w].matches == (if w in ed.wins then ed.wins[w].matches else map[])
  }

  // ---------------------------------------------------------------------
  // Queries
  // ---------------------------------------------------------------------

  predicate HasCurrentWindow(ed: Editor) { ed.cur in ed.wins }

  /** `win_getid()`: the current window, or 0 when there is none. */
  function WinGetId(ed: Editor): (w: WinId)
    ensures w != 0 ==> w in ed.wins
    ensures Valid(ed) && HasCurrentWindow(ed) ==> w == ed.cur && w > 0
  {
    if HasCurrentWindow(ed) then ed.cur else 0
  }

  /** `bufnr()`: the buffer of the current window, or -1 when there is none. */
  function CurBuf(ed: Editor): (b: BufNr)
    ensures Valid(ed) && HasCurrentWindow(ed) ==> b in ed.bufs
  {
    if HasCurrentWindow(ed) then ed.wins[ed.cur].buf else -1
  }

  /** `buflisted(nr)`. */
  predicate BufListed(ed: Editor, b: BufNr)
  {
    b in ed.bufs && ed.bufs[b].listed
  }

  /** `buflisted(name)`: looked up through the name index, it agrees with the buffer list. */
  predicate BufListedName(ed: Editor, name: string)
    ensures Valid(ed) && name != "" ==>
              (BufListedName(ed, name) <==> exists b :: b in ed.bufs && ed.bufs[b].name == name && ed.bufs[b].listed)
  {
    name in ed.names && BufListed(ed, ed.names[name])
  }

  /** `bufexists(nr)`: deleted buffers still exist, unlisted. */
  predicate BufExists(ed: Editor, b: BufNr)
    ensures BufListed(ed, b) ==> BufExists(ed, b)
    ensures Valid(ed) && BufExists(ed, b) ==> 1 <= b < ed.next
  {
    b in ed.bufs
  }

  // ---------------------------------------------------------------------
  // Windows
  // ---------------------------------------------------------------------

  /** `win_gotoid(w)`: focus `w` if it exists, else nothing happens. */
  function WinGotoId(ed: Editor, w: WinId): (r: Editor)
    ensures MatchesKept(ed, r)
    ensures Valid(ed) ==> Valid(r)
  {
    if w in ed.wins then ed.(cur := w) else ed
  }

  /** `close!`: closes the current window. */
  function CloseWindow(ed: Editor): (r: Editor)
    ensures MatchesKept(ed, r)
    ensures Valid(ed) ==> Valid(r)
    ensures r.wins.Keys == ed.wins.Keys - {ed.cur}
  {
    if HasCurrentWindow(ed) then ed.(wins := ed.wins - {ed.cur}) else ed
  }

  /**
   * The UI's preview-window opener: a new window on a new empty buffer,
   * which becomes the current window.
   */
  function OpenPreviewWindow(ed: Editor): (r: Editor)
    ensures Valid(ed) ==> MatchesKept(ed, r)
    ensures Valid(ed) ==> Valid(r) && HasCurrentWindow(r) && r.cur !in ed.wins
    ensures r.wins.Keys == ed.wins.Keys + {r.cur}
    ensures r.cur in r.wins && r.wins[r.cur].matches == map[]
  {
    var b, w := ed.next, ed.next + 1;
    ed.(bufs := ed.bufs[b := Buffer("", [], true, Normal, NoSyntax)],
        wins := ed.wins[w := Window(b, 1, map[])],
        cur := w,
        next := ed.next + 2)
  }

  // ---------------------------------------------------------------------
  // Buffers
  // ---------------------------------------------------------------------

  /** `enew`: a new empty unnamed buffer in the current window. */
  function Enew(ed: Editor): (r: Editor)
    ensures MatchesKept(ed, r)
    ensures Valid(ed) ==> Valid(r)
    ensures r.wins.Keys == ed.wins.Keys && r.cur == ed.cur
  {
    if !HasCurrentWindow(ed) then ed
    else
      var b := ed.next;
      ed.(bufs := ed.bufs[b := Buffer("", [], true, Normal, NoSyntax)],
          wins := ed.wins[ed.cur := ed.wins[ed.cur].(buf := b)],
          next := ed.next + 1)
  }

  /**
   * `edit name`: shows the buffer called `name` in the current window,
   * listing it again if it was deleted, or creates it empty.
   */
  function Edit(ed: Editor, name: string): (r: Editor)
    requires name != ""
    ensures MatchesKept(ed, r)
    ensures Valid(ed) ==> Valid(r)
    ensures r.wins.Keys == ed.wins.Keys && r.cur == ed.cur
    ensures Valid(ed) && HasCurrentWindow(ed) ==>
              CurBuf(r) in r.bufs && r.bufs[CurBuf(r)].name == name && r.bufs[CurBuf(r)].listed
  {
    if !HasCurrentWindow(ed) then ed
    else if name in ed.names then
      var b := ed.names[name];
      var bufs := if b in ed.bufs then ed.bufs[b := ed.bufs[b].(listed := true)] else ed.bufs;
      ed.(bufs := bufs, wins := ed.wins[ed.cur := ed.wins[ed.cur].(buf := b)])
    else
      var b := ed.next;
      ed.(bufs := ed.bufs[b := Buffer(name, [], true, Normal, NoSyntax)],
          names := ed.names[name := b],
          wins := ed.wins[ed.cur := ed.wins[ed.cur].(buf := b)],
          next := ed.next + 1)
  }

  /** `buffer name`: shows an existing buffer in the current window. */
  function SwitchBuffer(ed: Editor, name: string): (r: Editor)
    ensures MatchesKept(ed, r)
    ensures Valid(ed) ==> Valid(r)
    ensures r.bufs == ed.bufs && r.wins.Keys == ed.wins.Keys && r.cur == ed.cur
  {
    if HasCurrentWindow(ed) && name in ed.names then
      ed.(wins := ed.wins[ed.cur := ed.wins[ed.cur].(buf := ed.names[name])])
    else ed
  }

  /** `setbufvar(b, "&buftype", ...)`. */
  function SetBufType(ed: Editor, b: BufNr, t: BufType): (r: Editor)
    ensures MatchesKept(ed, r)
    ensures Valid(ed) ==> Valid(r)
    ensures r == ed.(bufs := r.bufs) && r.bufs.Keys == ed.bufs.Keys
    ensures forall c :: c in ed.bufs && c != b ==> r.bufs[c] == ed.bufs[c]
    ensures b in ed.bufs ==> r.bufs[b] == ed.bufs[b].(buftype := r.bufs[b].buftype) && r.bufs[b].buftype == t
  {
    if b in ed.bufs then ed.(bufs := ed.bufs[b := ed.bufs[b].(buftype := t)]) else ed
  }

  /** Replaces every line of buffer `b`. */
  function ReplaceLines(ed: Editor, b: BufNr, lines: seq<string>): (r: Editor)
    ensures MatchesKept(ed, r)
    ensures Valid(ed) ==> Valid(r)
    ensures r == ed.(bufs := r.bufs) && r.bufs.Keys == ed.bufs.Keys
    ensures forall c :: c in ed.bufs && c != b ==> r.bufs[c] == ed.bufs[c]
    ensures b in ed.bufs ==> r.bufs[b] == ed.bufs[b].(lines := r.bufs[b].lines) && r.bufs[b].lines == lines
  {
    if b in ed.bufs then ed.(bufs := ed.bufs[b := ed.bufs[b].(lines := lines)]) else ed
  }

  /** `syntax ...` or `filetype detect`: sets the syntax of the current buffer. */
  function SetSyntax(ed: Editor, syn: Syntax): (r: Editor)
    ensures MatchesKept(ed, r)
    ensures Valid(ed) ==> Valid(r)
    ensures r == ed.(bufs := r.bufs) && r.bufs.Keys == ed.bufs.Keys
    ensures forall c :: c in ed.bufs && c != CurBuf(ed) ==> r.bufs[c] == ed.bufs[c]
    ensures CurBuf(ed) in ed.bufs ==>
              r.bufs[CurBuf(ed)] == ed.bufs[CurBuf(ed)].(syntax := r.bufs[CurBuf(ed)].syntax)
              && r.bufs[CurBuf(ed)].syntax == syn
  {
    var b := CurBuf(ed);
    if b in ed.bufs then ed.(bufs := ed.bufs[b := ed.bufs[b].(syntax := syn)]) else ed
  }

  /** What `bdelete!` leaves of a buffer: unlisted and unloaded, name kept. */
  function Deleted(buf: Buffer): (d: Buffer)
    ensures !d.listed && d.name == buf.name
  {
    buf.(listed := false, lines := [])
  }

  /** `bdelete! b`: the buffer is unlisted and unloaded; the windows showing it are not closed here. */
  function Bdelete(ed: Editor, b: BufNr): (r: Editor)
    ensures MatchesKept(ed, r)
    ensures Valid(ed) ==> Valid(r)
    ensures r.bufs.Keys == ed.bufs.Keys && !BufListed(r, b)
    ensures forall c :: BufExists(r, c) <==> BufExists(ed, c)
    ensures r == ed.(bufs := r.bufs)
  {
    if b in ed.bufs then ed.(bufs := ed.bufs[b := Deleted(ed.bufs[b])]) else ed
  }

  /** `termopen(cmds)` / `term_start(cmds, {curwin})`: the current buffer becomes a terminal. */
  function Termopen(ed: Editor, cmds: seq<string>): (r: Editor)
    ensures MatchesKept(ed, r)
    ensures Valid(ed) ==> Valid(r)
    ensures r == ed.(bufs := r.bufs) && r.bufs.Keys == ed.bufs.Keys
    ensures forall c :: c in ed.bufs && c != CurBuf(ed) ==> r.bufs[c] == ed.bufs[c]
    ensures CurBuf(ed) in ed.bufs ==>
              r.bufs[CurBuf(ed)] == ed.bufs[CurBuf(ed)].(buftype := r.bufs[CurBuf(ed)].buftype)
              && r.bufs[CurBuf(ed)].buftype == Terminal(cmds)
  {
    var b := CurBuf(ed);
    if b in ed.bufs then ed.(bufs := ed.bufs[b := ed.bufs[b].(buftype := Terminal(cmds))]) else ed
  }

  // ---------------------------------------------------------------------
  // Cursor and highlights
  // ---------------------------------------------------------------------

  function LineCount(ed: Editor, b: BufNr): nat
  {
    if b in ed.bufs && |ed.bufs[b].lines| > 0 then |ed.bufs[b].lines| else 1
  }

  /** `cursor(line, 0)`: moves the cursor of the current window, clamped to the buffer. */
  function Cursor(ed: Editor, line: int): (r: Editor)
    ensures MatchesKept(ed, r)
    ensures Valid(ed) ==> Valid(r)
    ensures r.bufs == ed.bufs && r.cur == ed.cur && r.wins.Keys == ed.wins.Keys
    ensures forall w :: w in ed.wins ==> r.wins[w].buf == ed.wins[w].buf && r.wins[w].matches == ed.wins[w].matches
  {
    if !HasCurrentWindow(ed) || line < 1 then ed
    else
      var n := LineCount(ed, CurBuf(ed));
      ed.(wins := ed.wins[ed.cur := ed.wins[ed.cur].(cursor := if line <= n then line else n)])
  }

  /**
   * `matchdelete(id, w)`: removes a match of window `w`; Vim reports an
   * error when the window or the match does not exist.
   */
  function MatchDelete(ed: Editor, id: int, w: WinId): (r: Option<Editor>)
    ensures r.Some? <==> w in ed.wins && id in ed.wins[w].matches
    ensures r.Some? && Valid(ed) ==> Valid(r.value)
  {
    if w in ed.wins && id in ed.wins[w].matches then
      Some(ed.(wins := ed.wins[w := ed.wins[w].(matches := ed.wins[w].matches - {id})]))
    else None
  }

  /** `matchaddpos("Search", [line])`: a new match in the current window; its id is `ed.next`. */
  function MatchAddPos(ed: Editor, line: int): (r: Editor)
    ensures Valid(ed) ==> Valid(r)
    ensures r.next > ed.next
    ensures r == ed.(wins := r.wins, next := r.next) && r.wins.Keys == ed.wins.Keys
    ensures Valid(ed) && HasCurrentWindow(ed) ==> ed.next !in ed.wins[ed.cur].matches
    ensures HasCurrentWindow(ed) ==> r.wins[ed.cur].matches == ed.wins[ed.cur].matches[ed.next := line]
    ensures forall w :: w in ed.wins && w != ed.cur ==> r.wins[w] == ed.wins[w]
  {
    if HasCurrentWindow(ed) then
      ed.(wins := ed.wins[ed.cur := ed.wins[ed.cur].(matches := ed.wins[ed.cur].matches[ed.next := line])],
          next := ed.next + 1)
    else ed.(next := ed.next + 1)
  }

  /** Draws one span on buffer `b` (recorded in the span log). */
  function DrawSpan(ed: Editor, b: BufNr, span: Span): (r: Editor)
    ensures MatchesKept(ed, r)
    ensures Valid(ed) ==> Valid(r)
    ensures r.spans == ed.spans + [SpanCall(b, span)]
  {
    ed.(spans := ed.spans + [SpanCall(b, span)])
  }
}

=== FILE: json.dfy ===
/**
 * The action payload of a ddu item, as far as the preview controller sees
 * it: a JSON value.  The controller decides whether a request is "the same
 * target again" by comparing `JSON.stringify(action)` with
 * `JSON.stringify(previewedTarget)`, so this module gives `Stringify`, the
 * serialisation JSON.stringify produces for these values (no whitespace,
 * object members in their own order), and proves that it is injective by
 * exhibiting a parser that inverts it.  Consequently the string comparison
 * never reports two different payloads as equal (no false positive), while
 * two objects that differ only in member order are reported as different
 * (a false negative, shown by `MemberOrderMatters`).
 */
module Json {

  import opened Wrappers

  /** A JSON value.  Numbers are integers (see README, "Left out"). */
  datatype Value =
    | Null
    | Bool(b: bool)
    | Num(n: int)
    | Str(s: string)
    | Arr(items: seq<Value>)
    | Obj(members: seq<Member>)

  /** One object member, in the object's own enumeration order. */
  datatype Member = Member(key: string, value: Value)

  // ---------------------------------------------------------------------
  // Serialisation
  // ---------------------------------------------------------------------

  predicate IsDigit(c: char) { '0' <= c <= '9' }

  function Digit(d: nat): (c: char)
    requires d < 10
    ensures IsDigit(c) && c as int - '0' as int == d
  {
    ('0' as int + d) as char
  }

  /** Decimal notation of a natural number, most significant digit first. */
  function NatToString(n: nat): (s: string)
    ensures |s| > 0 && forall i :: 0 <= i < |s| ==> IsDigit(s[i])
    decreases n
  {
    if n < 10 then [Digit(n)] else NatToString(n / 10) + [Digit(n % 10)]
  }

  function IntToString(n: int): string
  {
    if n < 0 then "-" + NatToString(-n) else NatToString(n)
  }

  function HexDigit(d: nat): (c: char)
    requires d < 16
  {
    "0123456789abcdef"[d]
  }

  /** The escape JSON.stringify writes for one character of a string. */
  function EscapeChar(c: char): (e: string)
    ensures |e| > 0 && (e[0] == '\\' || e == [c])
    ensures e[0] != '"'
  {
    if c == '"' then "\\\""
    else if c == '\\' then "\\\\"
    else if c as int == 0x08 then "\\b"
    else if c as int == 0x09 then "\\t"
    else if c as int == 0x0A then "\\n"
    else if c as int == 0x0C then "\\f"
    else if c as int == 0x0D then "\\r"
    else if c as int < 0x20 then "\\u00" + [HexDigit(c as int / 16), HexDigit(c as int % 16)]
    else [c]
  }

  function Escape(s: string): string
  {
    if s == [] then "" else EscapeChar(s[0]) + Escape(s[1..])
  }

  function Quote(s: string): string
  {
    "\"" + Escape(s) + "\""
  }

  /** The text `JSON.stringify` produces for a value. */
  function Stringify(v: Value): string
    decreases v
  {
    match v
    case Null => "null"
    case Bool(b) => if b then "true" else "false"
    case Num(n) => IntToString(n)
    case Str(s) => Quote(s)
    case Arr(items) => "[" + Items(items) + "]"
    case Obj(members) => "{" + Members(members) + "}"
  }

  /** Comma-separated serialisations of array elements. */
  function Items(items: seq<Value>): string
    decreases items
  {
    if items == [] then ""
    else Stringify(items[0]) + (if |items| == 1 then "" else "," + Items(items[1..]))
  }

  /** Comma-separated `"key":value` serialisations of object members. */
  function Members(members: seq<Member>): string
    decreases members
  {
    if members == [] then ""
    else Quote(members[0].key) + ":" + Stringify(members[0].value)
         + (if |members| == 1 then "" else "," + Members(members[1..]))
  }

  // ---------------------------------------------------------------------
  // A parser, the left inverse of Stringify
  // ---------------------------------------------------------------------

  /** Length of the longest prefix of `s` made of decimal digits. */
  function DigitRun(s: string): (k: nat)
    ensures k <= |s| && (k < |s| ==> !IsDigit(s[k]))
    ensures forall i :: 0 <= i < k ==> IsDigit(s[i])
  {
    if s == [] || !IsDigit(s[0]) then 0 else 1 + DigitRun(s[1..])
  }

  /** The number a string of decimal digits denotes. */
  function DigitsValue(ds: string): nat
    requires forall i :: 0 <= i < |ds| ==> IsDigit(ds[i])
  {
    if ds == [] then 0
    else
      var last := ds[|ds| - 1];
      assert IsDigit(last);
      10 * DigitsValue(ds[..|ds| - 1]) + (last as int - '0' as int)
  }

  function HexValue(c: char): Option<nat>
  {
    if '0' <= c <= '9' then Some(c as int - '0' as int)
    else if 'a' <= c <= 'f' then Some(c as int - 'a' as int + 10)
    else None
  }

  /** Decodes the escape that follows a backslash; yields the character and the escape's length. */
  function Unescape(s: string): Option<(char, nat)>
  {
    if s == [] then None
    else if s[0] == '"' then Some(('"', 1))
    else if s[0] == '\\' then Some(('\\', 1))
    else if s[0] == 'b' then Some((0x08 as char, 1))
    else if s[0] == 't' then Some((0x09 as char, 1))
    else if s[0] == 'n' then Some((0x0A as char, 1))
    else if s[0] == 'f' then Some((0x0C as char, 1))
    else if s[0] == 'r' then Some((0x0D as char, 1))
    else if |s| >= 5 && s[..3] == "u00" then
      match (HexValue(s[3]), HexValue(s[4]))
      case (Some(h), Some(l)) => Some(((16 * h + l) as char, 5))
      case _ => None
    else None
  }

  /** Parses the body of a string literal up to and including its closing quote. */
  function ParseString(s: string): (r: Option<(string, string)>)
    ensures r.Some? ==> |r.value.1| < |s|
    decreases |s|
  {
    if s == [] then None
    else if s[0] == '"' then Some(("", s[1..]))
    else if s[0] == '\\' then
      match Unescape(s[1..])
      case None => None
      case Some((c, k)) =>
        if 1 + k <= |s| then
          match ParseString(s[1 + k..])
          case None => None
          case Some((t, rest)) => Some(([c] + t, rest))
        else None
    else
      match ParseString(s[1..])
      case None => None
      case Some((t, rest)) => Some(([s[0]] + t, rest))
  }

  function ParseNumber(s: string): (r: Option<(Value, string)>)
    ensures r.Some? ==> |r.value.1| < |s|
  {
    if s != [] && s[0] == '-' then
      var k := DigitRun(s[1..]);
      if k == 0 then None else Some((Num(-(DigitsValue(s[1..][..k]) as int)), s[1..][k..]))
    else
      var k := DigitRun(s);
      if k == 0 then None else Some((Num(DigitsValue(s[..k])), s[k..]))
  }

  /** Parses one value from the front of `s`, returning it and what follows. */
  function ParseValue(s: string): (r: Option<(Value, string)>)
    ensures r.Some? ==> |r.value.1| < |s|
    decreases |s|, 0
  {
    if s == [] then None
    else if |s| >= 4 && s[..4] == "null" then Some((Null, s[4..]))
    else if |s| >= 4 && s[..4] == "true" then Some((Bool(true), s[4..]))
    else if |s| >= 5 && s[..5] == "false" then Some((Bool(false), s[5..]))
    else if s[0] == '"' then
      match ParseString(s[1..])
      case None => None
      case Some((t, rest)) => Some((Str(t), rest))
    else if s[0] == '[' then ParseArray(s[1..])
    else if s[0] == '{' then ParseObject(s[1..])
    else ParseNumber(s)
  }

  /** Parses the rest of an array after its opening bracket. */
  function ParseArray(s: string): (r: Option<(Value, string)>)
    ensures r.Some? ==> |r.value.1| < |s|
    decreases |s|, 2
  {
    if s != [] && s[0] == ']' then Some((Arr([]), s[1..]))
    else
      match ParseItems(s)
      case None => None
      case Some((vs, rest)) => Some((Arr(vs), rest))
  }

  /** Parses `v1,v2,...]`. */
  function ParseItems(s: string): (r: Option<(seq<Value>, string)>)
    ensures r.Some? ==> |r.value.1| < |s|
    decreases |s|, 1
  {
    match ParseValue(s)
    case None => None
    case Some((v, rest)) =>
      if rest != [] && rest[0] == ']' then Some(([v], rest[1..]))
      else if rest != [] && rest[0] == ',' then
        match ParseItems(rest[1..])
        case None => None
        case Some((vs, rest')) => Some(([v] + vs, rest'))
      else None
  }

  /** Parses the rest of an object after its opening brace. */
  function ParseObject(s: string): (r: Option<(Value, string)>)
    ensures r.Some? ==> |r.value.1| < |s|
    decreases |s|, 2
  {
    if s != [] && s[0] == '}' then Some((Obj([]), s[1..]))
    else
      match ParseMembers(s)
      case None => None
      case Some((ms, rest)) => Some((Obj(ms), rest))
  }

  /** Parses `"k1":v1,"k2":v2,...}`. */
  function ParseMembers(s: string): (r: Option<(seq<Member>, string)>)
    ensures r.Some? ==> |r.value.1| < |s|
    decreases |s|, 1
  {
    if s == [] || s[0] != '"' then None
    else
      match ParseString(s[1..])
      case None => None
      case Some((key, afterKey)) =>
        if afterKey == [] || afterKey[0] != ':' then None
        else
          match ParseValue(afterKey[1..])
          case None => None
          case Some((v, rest)) =>
            if rest != [] && rest[0] == '}' then Some(([Member(key, v)], rest[1..]))
            else if rest != [] && rest[0] == ',' then
              match ParseMembers(rest[1..])
              case None => None
              case Some((ms, rest')) => Some(([Member(key, v)] + ms, rest'))
            else None
  }

  // ---------------------------------------------------------------------
  // Round trip and injectivity
  // ---------------------------------------------------------------------

  /** Text that may follow a serialised value inside a larger serialisation. */
  predicate Delimited(rest: string)
  {
    rest == [] || !IsDigit(rest[0])
  }

  lemma {:induction false} DigitsValueOfNat(n: nat)
    ensures DigitsValue(NatToString(n)) == n
    decreases n
  {
    if n >= 10 {
      var s := NatToString(n);
      assert s[..|s| - 1] == NatToString(n / 10);
      DigitsValueOfNat(n / 10);
    }
  }

  lemma {:induction false} DigitRunOfNat(n: nat, rest: string)
    requires Delimited(rest)
    ensures DigitRun(NatToString(n) + rest) == |NatToString(n)|
  {
    var s := NatToString(n);
    DigitRunPrefix(s, rest);
  }

  lemma {:induction false} DigitRunPrefix(ds: string, rest: string)
    requires forall i :: 0 <= i < |ds| ==> IsDigit(ds[i])
    requires Delimited(rest)
    ensures DigitRun(ds + rest) == |ds|
    decreases |ds|
  {
    if ds != [] {
      assert (ds + rest)[1..] == ds[1..] + rest;
      DigitRunPrefix(ds[1..], rest);
    }
  }

  lemma NumberRoundTrip(n: int, rest: string)
    requires Delimited(rest)
    ensures ParseNumber(IntToString(n) + rest) == Some((Num(n), rest))
  {
    var m: nat := if n < 0 then -n else n;
    var d := NatToString(m);
    DigitRunOfNat(m, rest);
    DigitsValueOfNat(m);
    if n < 0 {
      var s := IntToString(n) + rest;
      assert s[1..] == d + rest;
      assert s[1..][..|d|] == d;
      assert s[1..][|d|..] == rest;
    } else {
      var s := IntToString(n) + rest;
      assert s == d + rest;
      assert s[..|d|] == d;
      assert s[|d|..] == rest;
    }
  }

  lemma HexRoundTrip(d: nat)
    requires d < 16
    ensures HexValue(HexDigit(d)) == Some(d)
  {
  }

  lemma EscapeCharRoundTrip(c: char, t: string)
    ensures ParseString(EscapeChar(c) + t) ==
            match ParseString(t)
            case None => None
            case Some((u, rest)) => Some(([c] + u, rest))
  {
    var e := EscapeChar(c);
    var s := e + t;
    if e == [c] {
      assert s[1..] == t;
    } else if |e| == 2 {
      assert s[1..] == [e[1]] + t;
      assert s[2..] == t;
    } else {
      assert c as int < 0x20;
      var h, l := c as int / 16, c as int % 16;
      HexRoundTrip(h);
      HexRoundTrip(l);
      assert s[1..][..3] == "u00";
      assert s[1..][3] == HexDigit(h) && s[1..][4] == HexDigit(l);
      assert (16 * h + l) as char == c;
      assert s[6..] == t;
    }
  }

  lemma {:induction false} StringRoundTrip(str: string, rest: string)
    ensures ParseString(Escape(str) + "\"" + rest) == Some((str, rest))
    decreases |str|
  {
    if str == [] {
      assert Escape(str) + "\"" + rest == "\"" + rest;
    } else {
      var t := Escape(str[1..]) + "\"" + rest;
      assert Escape(str) + "\"" + rest == EscapeChar(str[0]) + t;
      EscapeCharRoundTrip(str[0], t);
      StringRoundTrip(str[1..], rest);
      assert [str[0]] + str[1..] == str;
    }
  }

  /** Parsing a serialisation, followed by any delimiter, gives the value back. */
  lemma {:induction false} ValueRoundTrip(v: Value, rest: string)
    requires Delimited(rest)
    ensures ParseValue(Stringify(v) + rest) == Some((v, rest))
    decreases v, 2
  {
    match v
    case Null => LiteralRoundTrip(v, rest);
    case Bool(_) => LiteralRoundTrip(v, rest);
    case Num(n) => NumValueRoundTrip(n, rest);
    case Str(t) => StrValueRoundTrip(t, rest);
    case Arr(items) => ArrayRoundTrip(items, rest);
    case Obj(members) => ObjectRoundTrip(members, rest);
  }

  lemma LiteralRoundTrip(v: Value, rest: string)
    requires v.Null? || v.Bool?
    ensures ParseValue(Stringify(v) + rest) == Some((v, rest))
  {
    var s := Stringify(v) + rest;
    if v.Null? {
      assert s[..4] == "null" && s[4..] == rest;
    } else if v.b {
      assert s[..4] == "true" && s[4..] == rest;
    } else {
      assert s[0] == 'f';
      assert s[..5] == "false" && s[5..] == rest;
    }
  }

  lemma NumValueRoundTrip(n: int, rest: string)
    requires Delimited(rest)
    ensures ParseValue(Stringify(Num(n)) + rest) == Some((Num(n), rest))
  {
    var s := IntToString(n) + rest;
    NumberRoundTrip(n, rest);
    assert s[0] == '-' || IsDigit(s[0]);
  }

  lemma StrValueRoundTrip(t: string, rest: string)
    ensures ParseValue(Stringify(Str(t)) + rest) == Some((Str(t), rest))
  {
    var s := Stringify(Str(t)) + rest;
    assert s[0] == '"' && s[1..] == Escape(t) + "\"" + rest;
    StringRoundTrip(t, rest);
  }

  lemma {:induction false} ArrayRoundTrip(items: seq<Value>, rest: string)
    ensures ParseValue(Stringify(Arr(items)) + rest) == Some((Arr(items), rest))
    decreases items, 1
  {
    var s := Stringify(Arr(items)) + rest;
    var body := Items(items) + "]" + rest;
    assert s == "[" + body;
    OpenBracket(body);
    if items == [] {
      assert body == "]" + rest;
    } else {
      ItemsRoundTrip(items, rest);
      ItemsStart(items);
    }
  }

  lemma {:induction false} ObjectRoundTrip(members: seq<Member>, rest: string)
    ensures ParseValue(Stringify(Obj(members)) + rest) == Some((Obj(members), rest))
    decreases members, 1
  {
    var s := Stringify(Obj(members)) + rest;
    var body := Members(members) + "}" + rest;
    assert s == "{" + body;
    OpenBrace(body);
    if members == [] {
      assert body == "}" + rest;
    } else {
      MembersRoundTrip(members, rest);
      assert Members(members)[0] == '"';
    }
  }

  /** A value that starts with `[` is an array. */
  lemma OpenBracket(body: string)
    ensures ParseValue("[" + body) == ParseArray(body)
  {
    var s := "[" + body;
    assert s[0] == '[' && s[1..] == body;
  }

  /** A value that starts with `{` is an object. */
  lemma OpenBrace(body: string)
    ensures ParseValue("{" + body) == ParseObject(body)
  {
    var s := "{" + body;
    assert s[0] == '{' && s[1..] == body;
  }

  /** A non-empty element list never starts with a closing bracket. */
  lemma ItemsStart(items: seq<Value>)
    requires items != []
    ensures Items(items) != [] && Items(items)[0] != ']'
  {
    var v := items[0];
    match v
    case Num(n) =>
      assert Stringify(v)[0] == '-' || IsDigit(Stringify(v)[0]);
    case _ =>
  }

  lemma {:induction false} ItemsRoundTrip(items: seq<Value>, rest: string)
    requires items != []
    ensures ParseItems(Items(items) + "]" + rest) == Some((items, rest))
    decreases items, 0
  {
    var s := Items(items) + "]" + rest;
    if |items| == 1 {
      assert s == Stringify(items[0]) + ("]" + rest);
      ValueRoundTrip(items[0], "]" + rest);
      assert ("]" + rest)[1..] == rest;
      assert [items[0]] == items;
    } else {
      var tail := "," + (Items(items[1..]) + "]" + rest);
      assert s == Stringify(items[0]) + tail;
      ValueRoundTrip(items[0], tail);
      ItemsRoundTrip(items[1..], rest);
      assert tail[1..] == Items(items[1..]) + "]" + rest;
      assert [items[0]] + items[1..] == items;
    }
  }

  lemma {:induction false} MembersRoundTrip(members: seq<Member>, rest: string)
    requires members != []
    ensures ParseMembers(Members(members) + "}" + rest) == Some((members, rest))
    decreases members, 0
  {
    var m := members[0];
    var tail := MembersTail(members, rest);
    MembersSplit(members, rest);
    MemberStep(m, tail);
    TailShape(members, rest);
    if |members| == 1 {
      assert [m] == members;
    } else {
      MembersRoundTrip(members[1..], rest);
      assert [m] + members[1..] == members;
    }
  }

  lemma TailShape(members: seq<Member>, rest: string)
    requires members != []
    ensures var tail := MembersTail(members, rest);
            if |members| == 1 then tail[0] == '}' && tail[1..] == rest
            else tail[0] == ',' && tail[1..] == Members(members[1..]) + "}" + rest
  {
    var tail := MembersTail(members, rest);
    if |members| > 1 {
      var ms := Members(members[1..]);
      assert tail == "," + ms + ("}" + rest);
      assert tail[1..] == ms + ("}" + rest);
    } else {
      assert tail == "" + ("}" + rest);
    }
  }

  /** What follows the first member in `Members(members) + "}" + rest`. */
  function MembersTail(members: seq<Member>, rest: string): (tail: string)
    requires members != []
    ensures tail != [] && (tail[0] == '}' || tail[0] == ',')
  {
    MembersAfterFirst(members) + ("}" + rest)
  }

  /** The serialisation of the members after the first, with its leading comma. */
  function MembersAfterFirst(members: seq<Member>): (x: string)
    requires members != []
    ensures x == [] || x[0] == ','
  {
    if |members| == 1 then "" else "," + Members(members[1..])
  }

  lemma MembersSplit(members: seq<Member>, rest: string)
    requires members != []
    ensures Members(members) + "}" + rest ==
            Quote(members[0].key) + (":" + (Stringify(members[0].value) + MembersTail(members, rest)))
  {
    var a, c, x := Quote(members[0].key), Stringify(members[0].value), MembersAfterFirst(members);
    assert Members(members) == a + ":" + c + x;
    Associate(Members(members), a, c, x, "}" + rest);
  }

  lemma Associate(whole: string, a: string, c: string, x: string, e: string)
    requires whole == a + ":" + c + x
    ensures whole + e == a + (":" + (c + (x + e)))
  {
  }

  /** One member is read back, and parsing goes on according to the delimiter after it. */
  lemma MemberStep(m: Member, tail: string)
    requires tail != [] && (tail[0] == '}' || tail[0] == ',')
    ensures ParseMembers(Quote(m.key) + (":" + (Stringify(m.value) + tail))) ==
            if tail[0] == '}' then Some(([m], tail[1..]))
            else match ParseMembers(tail[1..])
                 case None => None
                 case Some((ms, rest')) => Some(([m] + ms, rest'))
  {
    var afterKey := ":" + (Stringify(m.value) + tail);
    var s := Quote(m.key) + afterKey;
    assert s[0] == '"' && s[1..] == Escape(m.key) + "\"" + afterKey;
    StringRoundTrip(m.key, afterKey);
    assert afterKey[1..] == Stringify(m.value) + tail;
    ValueRoundTrip(m.value, tail);
  }

  /**
   * JSON.stringify is injective on these values: equal serialisations mean
   * equal payloads, so the toggle test has no false positives.
   */
  lemma StringifyInjective(a: Value, b: Value)
    ensures Stringify(a) == Stringify(b) <==> a == b
  {
    if Stringify(a) == Stringify(b) {
      ValueRoundTrip(a, "");
      ValueRoundTrip(b, "");
      assert Stringify(a) + "" == Stringify(a);
      assert Stringify(b) + "" == Stringify(b);
    }
  }

  /**
   * Two objects with the same members in a different order serialise
   * differently: the comparison is order-sensitive.
   */
  lemma MemberOrderMatters(ms: seq<Member>, ns: seq<Member>)
    requires multiset(ms) == multiset(ns) && ms != ns
    ensures Stringify(Obj(ms)) != Stringify(Obj(ns))
  {
    StringifyInjective(Obj(ms), Obj(ns));
  }
}

=== FILE: preview_laws.dfy ===
/**
 * What the preview controller promises, stated over the transitions of
 * `PreviewSpec`: closing, toggling, the no-op cases, what a rendered
 * preview records, how the preview window handle and the preview buffer
 * are reused, and the bookkeeping of the line match.
 */
module PreviewLaws {

  import opened Editor
  import opened PreviewSpec
  import Json
  import Text
  import W = Wrappers

  // ---------------------------------------------------------------------
  // close
  // ---------------------------------------------------------------------

  /** Closing twice is closing once. */
  lemma CloseIdempotent(u: Ui, ed: Editor)
    ensures var (u1, ed1) := Close(u, ed);
            Close(u1, ed1) == (u1, ed1)
  {
    var (u1, ed1) := Close(u, ed);
    assert u1.previewWinId <= 0 && u1.previewBufnrs == u.previewBufnrs;
    assert forall b :: b in ed1.bufs && b in u.previewBufnrs ==> !ed1.bufs[b].listed;
    assert DeleteListed(ed1, u1.previewBufnrs).bufs == ed1.bufs;
  }

  /**
   * The window part of `close`: a recorded handle is reset to -1 and the
   * window it names is closed, the caller's window gets the focus back,
   * and nothing else of the controller's state is reset.  Without a
   * recorded handle no window changes.
   */
  lemma CloseWindowPart(u: Ui, ed: Editor)
    ensures var (u1, ed1) := Close(u, ed);
            && u1 == u.(previewWinId := if u.previewWinId > 0 then -1 else u.previewWinId)
            && (u.previewWinId > 0 && u.previewWinId in ed.wins ==>
                  ed1.wins.Keys == ed.wins.Keys - {u.previewWinId})
            && (u.previewWinId > 0 && u.previewWinId in ed.wins && HasCurrentWindow(ed) && ed.cur != u.previewWinId ==>
                  ed1.cur == ed.cur)
            && (u.previewWinId <= 0 ==> ed1.wins == ed.wins && ed1.cur == ed.cur)
  {
    if u.previewWinId > 0 && u.previewWinId in ed.wins {
      var e1 := WinGotoId(ed, u.previewWinId);
      var e2 := CloseWindow(e1);
      assert e2.wins.Keys == ed.wins.Keys - {u.previewWinId};
      if HasCurrentWindow(ed) && ed.cur != u.previewWinId {
        assert ed.cur in e2.wins;
      }
    }
  }

  /**
   * As written, a handle whose window is already gone (closed by the user)
   * makes `close` close the caller's own window: the jump to the preview
   * window fails and `close!` acts on the current one.
   */
  lemma CloseStaleHandle(u: Ui, ed: Editor)
    requires u.previewWinId > 0 && u.previewWinId !in ed.wins && HasCurrentWindow(ed)
    ensures Close(u, ed).1.wins.Keys == ed.wins.Keys - {ed.cur}
  {
    assert WinGotoId(ed, u.previewWinId) == ed;
  }

  /**
   * As written, a render with a handle whose window the user has closed
   * acts on the caller's window: `win_gotoid` fails, so `edit` shows the
   * preview buffer in the caller's window and `matchaddpos` puts the line
   * match there, recorded under the dead handle.  The next highlight then
   * finds no window for that match and fails, until `close`.
   */
  lemma StaleHandlePreview(u: Ui, ed: Editor, contents: seq<string>, line: int, syn: string,
                           spans: seq<Span>, word: string, files: map<string, string>, q: Previewer, c: BufNr)
    requires Valid(ed) && HasCurrentWindow(ed)
    requires u.previewWinId > 0 && u.previewWinId !in ed.wins && !HasOldMatch(u, u.previewWinId)
    requires |contents| > 0 && line != 0 && !BufListedName(ed, Prefix + word)
    ensures var s := PreviewBuffer(u, ed, NoFilePreviewer(contents, line, syn, spans), word, files);
            var dead := u.previewWinId;
            && s.outcome == Flag(Persist)
            && s.ui.previewWinId == dead && dead !in s.ed.wins
            && s.ed.cur == ed.cur && ed.cur in s.ed.wins
            && var b := s.ed.wins[ed.cur].buf;
               && b in s.ed.bufs && s.ed.bufs[b].name == Prefix + word && s.ed.bufs[b].lines == contents
               && HasOldMatch(s.ui, dead)
               && s.ui.matchIds[dead] in s.ed.wins[ed.cur].matches
               && s.ed.wins[ed.cur].matches[s.ui.matchIds[dead]] == line
               && Highlight(s.ui, s.ed, q, c).outcome.Thrown?
  {
    var p := NoFilePreviewer(contents, line, syn, spans);
    var name := Prefix + word;
    assert FocusWindow(u, ed) == (u, ed);
    var ed2 := Edit(ed, name);
    FillFacts(ed2, p, contents);
    var ed3 := Fill(ed2, p, contents);
    assert ed3.next >= 1;
    var s := PreviewBuffer(u, ed, p, word, files);
    HighlightFails(s.ui, s.ed, q, c);
  }

  /**
   * Once a match is recorded under a handle whose window is gone, every
   * buffer preview fails in `matchdelete`, and leaves the handle and the
   * recorded match as they were, so the next one fails too, until `close`
   * resets the handle.
   */
  lemma StaleHandleStuck(u: Ui, ed: Editor, p: Previewer, word: string, files: map<string, string>)
    requires u.previewWinId > 0 && u.previewWinId !in ed.wins && HasOldMatch(u, u.previewWinId)
    requires !p.TermPreviewer? && !Rejected(p)
    ensures var s := PreviewBuffer(u, ed, p, word, files);
            s.outcome.Thrown? && s.ui == u && u.previewWinId !in s.ed.wins
  {
    assert FocusWindow(u, ed) == (u, ed);
    var name := BufferName(ed, p, word);
    if !BufListedName(ed, name) {
      var ed2 := Edit(ed, name);
      if Contents(ed2, p, files).Success? {
        var ed3 := Fill(ed2, p, Contents(ed2, p, files).value);
        HighlightFails(u, ed3, p, CurBuf(ed3));
      }
    } else {
      var ed2 := SwitchBuffer(ed, name);
      HighlightFails(u, ed2, p, CurBuf(ed2));
    }
  }

  /**
   * The buffer sweep of `close`: exactly the tracked buffers that are still
   * listed get deleted; every other buffer is left as it was, and no
   * buffer disappears (a deleted buffer keeps its number and name).
   */
  lemma CloseSweep(u: Ui, ed: Editor)
    ensures var ed1 := Close(u, ed).1;
            && ed1.bufs.Keys == ed.bufs.Keys
            && (forall b :: b in ed.bufs ==> (BufListed(ed1, b) <==> BufListed(ed, b) && b !in u.previewBufnrs))
            && (forall b :: b in ed.bufs && !(BufListed(ed, b) && b in u.previewBufnrs) ==> ed1.bufs[b] == ed.bufs[b])
            && (forall b :: b in ed.bufs ==> ed1.bufs[b].name == ed.bufs[b].name)
  {
    var e := if u.previewWinId > 0 then WinGotoId(CloseWindow(WinGotoId(ed, u.previewWinId)), WinGetId(ed)) else ed;
    assert e.bufs == ed.bufs;
  }

  // ---------------------------------------------------------------------
  // highlight
  // ---------------------------------------------------------------------

  /**
   * `highlight` fails exactly when a match is recorded for the preview
   * window but no longer exists there, and then changes nothing.
   */
  lemma HighlightFails(u: Ui, ed: Editor, p: Previewer, b: BufNr)
    ensures var s := Highlight(u, ed, p, b);
            var w := u.previewWinId;
            && (s.outcome.Thrown? <==> HasOldMatch(u, w) && !(w in ed.wins && u.matchIds[w] in ed.wins[w].matches))
            && (s.outcome.Thrown? ==> s.ui == u && s.ed == ed)
            && (!s.outcome.Thrown? ==> s.outcome == Flag(Persist))
  {
  }

  /** The editor between the deletion of the old match and the new one. */
  function Cleared(u: Ui, ed: Editor): Editor
    requires !HasOldMatch(u, u.previewWinId) || MatchDelete(ed, u.matchIds[u.previewWinId], u.previewWinId).Some?
  {
    if HasOldMatch(u, u.previewWinId) then MatchDelete(ed, u.matchIds[u.previewWinId], u.previewWinId).value else ed
  }

  /** Deleting the old match touches only that window's matches. */
  lemma ClearedShape(u: Ui, ed: Editor)
    requires !HasOldMatch(u, u.previewWinId) || MatchDelete(ed, u.matchIds[u.previewWinId], u.previewWinId).Some?
    ensures var ed1 := Cleared(u, ed);
            var w := u.previewWinId;
            && ed1 == ed.(wins := ed1.wins)
            && ed1.wins.Keys == ed.wins.Keys
            && (forall v :: v in ed.wins ==> ed1.wins[v].buf == ed.wins[v].buf)
            && (forall v :: v in ed.wins && v != w ==> ed1.wins[v] == ed.wins[v])
            && (HasOldMatch(u, w) ==> ed1.wins[w].matches == ed.wins[w].matches - {u.matchIds[w]})
            && (!HasOldMatch(u, w) ==> ed1 == ed)
            && (Valid(ed) ==> Valid(ed1))
  {
  }

  /**
   * When it succeeds, `highlight` deletes the recorded match, adds a new
   * one on `lineNr` in the current window and records its id for the
   * preview window when the previewer has a line, and draws the spans in
   * order on `b`; no buffer, window or other controller field changes.
   */
  lemma HighlightMatchIds(u: Ui, ed: Editor, p: Previewer, b: BufNr)
    requires !Highlight(u, ed, p, b).outcome.Thrown?
    ensures var s := Highlight(u, ed, p, b);
            var w := u.previewWinId;
            && s.ui == u.(matchIds := if p.LineNr() != 0 then u.matchIds[w := ed.next] else u.matchIds)
            && s.ed.bufs == ed.bufs && s.ed.names == ed.names && s.ed.cur == ed.cur
            && s.ed.wins.Keys == ed.wins.Keys
            && (forall v :: v in ed.wins ==> s.ed.wins[v].buf == ed.wins[v].buf)
            && s.ed.spans == ed.spans + SpanCalls(b, p.Highlights())
            && (Valid(ed) ==> Valid(s.ed))
  {
    HighlightFails(u, ed, p, b);
    ClearedShape(u, ed);
  }

  /**
   * The line match is replaced, not accumulated: after a successful
   * `highlight` in the preview window the old match is gone, and the new
   * one, when there is a line, sits on that line under the recorded id.
   */
  lemma HighlightReplacesMatch(u: Ui, ed: Editor, p: Previewer, b: BufNr)
    requires Valid(ed) && !Highlight(u, ed, p, b).outcome.Thrown?
    requires HasCurrentWindow(ed) && ed.cur == u.previewWinId
    ensures var s := Highlight(u, ed, p, b);
            var w := u.previewWinId;
            && (HasOldMatch(u, w) ==> u.matchIds[w] !in s.ed.wins[w].matches)
            && (p.LineNr() != 0 ==>
                  s.ui.matchIds[w] in s.ed.wins[w].matches && s.ed.wins[w].matches[s.ui.matchIds[w]] == p.LineNr())
            && (forall m :: m in s.ed.wins[w].matches ==> m in ed.wins[w].matches || (p.LineNr() != 0 && m == ed.next))
  {
    HighlightFails(u, ed, p, b);
    ClearedShape(u, ed);
    var w := u.previewWinId;
    if HasOldMatch(u, w) {
      assert u.matchIds[w] < ed.next;
    }
  }

  /**
   * As written, a preview without a line keeps the match id of the one
   * before although that match was deleted, so the next highlight in the
   * same window fails whatever it shows.
   */
  lemma StaleMatchId(u: Ui, ed: Editor, p: Previewer, b: BufNr, q: Previewer, c: BufNr)
    requires Valid(ed)
    requires HasOldMatch(u, u.previewWinId) && u.previewWinId in ed.wins
    requires u.matchIds[u.previewWinId] in ed.wins[u.previewWinId].matches
    requires p.LineNr() == 0
    ensures var s := Highlight(u, ed, p, b);
            s.outcome == Flag(Persist) && Highlight(s.ui, s.ed, q, c).outcome.Thrown?
  {
    HighlightFails(u, ed, p, b);
    ClearedShape(u, ed);
    var s := Highlight(u, ed, p, b);
    HighlightFails(s.ui, s.ed, q, c);
  }

  // ---------------------------------------------------------------------
  // The preview window
  // ---------------------------------------------------------------------

  /** The recorded handle is unset, or names a window that still exists. */
  predicate WindowReachable(u: Ui, ed: Editor)
  {
    u.previewWinId < 0 || u.previewWinId in ed.wins
  }

  /**
   * Opening or focusing the preview window: afterwards it is the current
   * window and its handle is recorded; a new window gets a fresh handle;
   * no existing buffer, name or window goes away.
   */
  lemma FocusWindowFacts(u: Ui, ed: Editor)
    requires Valid(ed) && WindowReachable(u, ed)
    ensures var (u1, ed1) := FocusWindow(u, ed);
            && Valid(ed1) && MatchesKept(ed, ed1)
            && u1.previewWinId > 0 && u1.previewWinId in ed1.wins && ed1.cur == u1.previewWinId
            && u1 == u.(previewWinId := u1.previewWinId)
            && (u.previewWinId >= 0 ==> u1 == u)
            && (u.previewWinId < 0 ==> u1.previewWinId !in ed.wins)
            && ed.wins.Keys <= ed1.wins.Keys
            && (forall v :: v in ed.wins ==> ed1.wins[v].buf == ed.wins[v].buf)
            && ed.bufs.Keys <= ed1.bufs.Keys
            && (forall b :: b in ed.bufs ==> ed1.bufs[b] == ed.bufs[b])
            && ed1.names == ed.names && ed1.spans == ed.spans
  {
    if u.previewWinId < 0 {
      var ed1 := OpenPreviewWindow(ed);
      assert WinGetId(ed1) == ed1.cur;
    }
  }

  /**
   * The handle is assigned only when none is recorded: on both render
   * paths an existing handle is kept, and a new one names a window that
   * did not exist before.  A render that succeeds leaves the preview
   * window current and no window closed, and a render never touches the
   * shown buffers or the previewed target.
   */
  lemma WindowHandle(u: Ui, ed: Editor, p: Previewer, word: string, files: map<string, string>)
    requires Valid(ed) && WindowReachable(u, ed)
    ensures var s := Render(u, ed, p, word, files);
            && Valid(s.ed) && WindowReachable(s.ui, s.ed)
            && s.ui.previewBufnrs == u.previewBufnrs && s.ui.previewedTarget == u.previewedTarget
            && (u.previewWinId >= 0 ==> s.ui.previewWinId == u.previewWinId)
            && (u.previewWinId >= 0 ==> s.ed.wins.Keys == ed.wins.Keys)
            && (u.previewWinId < 0 && !Rejected(p) ==> s.ed.wins.Keys == ed.wins.Keys + {s.ui.previewWinId})
            && (s.outcome == Flag(Persist) ==>
                  && s.ui.previewWinId > 0 && s.ui.previewWinId in s.ed.wins && s.ed.cur == s.ui.previewWinId
                  && ed.wins.Keys <= s.ed.wins.Keys
                  && (u.previewWinId < 0 ==> s.ui.previewWinId !in ed.wins))
  {
    if p.TermPreviewer? {
      TerminalWindow(u, ed, p.cmds);
    } else if !Rejected(p) {
      BufferWindow(u, ed, p, word, files);
    }
  }

  /** `highlight` keeps the window layout, the buffers and every field but `matchIds`. */
  lemma HighlightWindow(u: Ui, ed: Editor, p: Previewer, b: BufNr)
    requires Valid(ed)
    ensures var s := Highlight(u, ed, p, b);
            && Valid(s.ed)
            && s.ui == u.(matchIds := s.ui.matchIds)
            && s.ed.cur == ed.cur && s.ed.wins.Keys == ed.wins.Keys
            && (forall v :: v in ed.wins ==> s.ed.wins[v].buf == ed.wins[v].buf)
            && s.ed.bufs == ed.bufs && s.ed.names == ed.names
  {
    HighlightFails(u, ed, p, b);
    if !Highlight(u, ed, p, b).outcome.Thrown? {
      HighlightMatchIds(u, ed, p, b);
    }
  }

  /**
   * Filling a new preview buffer changes that buffer only: it becomes a
   * scratch buffer holding `text`, keeps its name and stays listed.
   */
  lemma FillFacts(ed: Editor, p: Previewer, text: seq<string>)
    requires Valid(ed) && HasCurrentWindow(ed)
    ensures var r := Fill(ed, p, text);
            var b := CurBuf(ed);
            && Valid(r) && MatchesKept(ed, r)
            && r.cur == ed.cur && r.wins == ed.wins && r.names == ed.names && r.spans == ed.spans
            && r.bufs.Keys == ed.bufs.Keys
            && (forall c :: c in ed.bufs && c != b ==> r.bufs[c] == ed.bufs[c])
            && r.bufs[b].name == ed.bufs[b].name && r.bufs[b].listed == ed.bufs[b].listed
            && r.bufs[b].buftype == NoFile && r.bufs[b].lines == text
            && (p.Syntax() != "" ==> r.bufs[b].syntax == Named(p.Syntax()))
            && (p.Syntax() == "" && p.BufferPreviewer? ==> r.bufs[b].syntax == Detected)
  {
  }

  /** The buffer path of `WindowHandle`. */
  lemma BufferWindow(u: Ui, ed: Editor, p: Previewer, word: string, files: map<string, string>)
    requires Valid(ed) && WindowReachable(u, ed) && !p.TermPreviewer? && !Rejected(p)
    ensures var s := PreviewBuffer(u, ed, p, word, files);
            && Valid(s.ed)
            && s.ui == u.(previewWinId := s.ui.previewWinId, matchIds := s.ui.matchIds)
            && (u.previewWinId >= 0 ==> s.ui.previewWinId == u.previewWinId)
            && s.ui.previewWinId > 0 && s.ui.previewWinId in s.ed.wins
            && (u.previewWinId >= 0 ==> s.ed.wins.Keys == ed.wins.Keys)
            && (u.previewWinId < 0 ==> s.ed.wins.Keys == ed.wins.Keys + {s.ui.previewWinId})
            && (!s.outcome.Thrown? ==>
                  && s.outcome == Flag(Persist)
                  && s.ui.previewWinId > 0 && s.ui.previewWinId in s.ed.wins && s.ed.cur == s.ui.previewWinId
                  && ed.wins.Keys <= s.ed.wins.Keys
                  && (u.previewWinId < 0 ==> s.ui.previewWinId !in ed.wins))
  {
    FocusWindowFacts(u, ed);
    var name := BufferName(ed, p, word);
    var (u1, ed1) := FocusWindow(u, ed);
    if !BufListedName(ed, name) {
      var ed2 := Edit(ed1, name);
      match Contents(ed2, p, files)
      case Failure(f) =>
      case Success(text) =>
        FillFacts(ed2, p, text);
        var ed3 := Fill(ed2, p, text);
        HighlightWindow(u1, ed3, p, CurBuf(ed3));
        HighlightFails(u1, ed3, p, CurBuf(ed3));
    } else {
      var ed2 := SwitchBuffer(ed1, name);
      HighlightWindow(u1, ed2, p, CurBuf(ed2));
      HighlightFails(u1, ed2, p, CurBuf(ed2));
    }
  }

  /** The terminal path of `WindowHandle`. */
  lemma TerminalWindow(u: Ui, ed: Editor, cmds: seq<string>)
    requires Valid(ed) && WindowReachable(u, ed)
    ensures var s := PreviewTerminal(u, ed, cmds);
            && Valid(s.ed) && s.outcome == Flag(Persist)
            && s.ui == u.(previewWinId := s.ui.previewWinId, terminalBufnr := s.ui.terminalBufnr)
            && (u.previewWinId >= 0 ==> s.ui.previewWinId == u.previewWinId)
            && s.ui.previewWinId > 0 && s.ui.previewWinId in s.ed.wins && s.ed.cur == s.ui.previewWinId
            && ed.wins.Keys <= s.ed.wins.Keys
            && (u.previewWinId < 0 ==> s.ui.previewWinId !in ed.wins)
            && (u.previewWinId >= 0 ==> s.ed.wins.Keys == ed.wins.Keys)
            && (u.previewWinId < 0 ==> s.ed.wins.Keys == ed.wins.Keys + {s.ui.previewWinId})
  {
    if u.previewWinId < 0 {
      FocusWindowFacts(u, ed);
    }
  }

  // ---------------------------------------------------------------------
  // The preview buffer
  // ---------------------------------------------------------------------

  /** `"ddu-ff:" + a` determines `a`. */
  lemma PrefixInjective(a: string, b: string)
    ensures Prefix + a == Prefix + b <==> a == b
  {
    if Prefix + a == Prefix + b {
      assert a == (Prefix + a)[|Prefix|..];
      assert b == (Prefix + b)[|Prefix|..];
    }
  }

  /**
   * The buffer name is the key under which a preview is found again: two
   * scratch previews share a buffer exactly when their items have the same
   * word, and two file previews without `expr` exactly when they have the
   * same path, whatever the editor holds.
   */
  lemma PreviewNameKey(ed: Editor, ed': Editor, p: Previewer, q: Previewer, w1: string, w2: string)
    ensures p.NoFilePreviewer? && q.NoFilePreviewer? ==>
              (BufferName(ed, p, w1) == BufferName(ed', q, w2) <==> w1 == w2)
    ensures p.BufferPreviewer? && q.BufferPreviewer? && !ExprSet(p.expr) && !ExprSet(q.expr) ==>
              (BufferName(ed, p, w1) == BufferName(ed', q, w2) <==> p.path == q.path)
  {
    PrefixInjective(w1, w2);
    if p.BufferPreviewer? && q.BufferPreviewer? {
      PrefixInjective(p.path, q.path);
    }
  }

  /**
   * The `expr` branch of the buffer name: a file previewer whose `expr`
   * designates no buffer gets exactly `ddu-ff:`, whatever its `path`, so
   * all such previews share one buffer; an `expr` naming a buffer gives
   * `ddu-ff:` and that name.
   */
  lemma ExprNameKey(ed: Editor, p: Previewer, word: string)
    requires Valid(ed) && p.BufferPreviewer? && ExprSet(p.expr)
    ensures Resolve(ed, p.expr.value).None? ==> BufferName(ed, p, word) == Prefix
    ensures p.expr.value.ByName? && Resolve(ed, p.expr.value).Some? ==>
              BufferName(ed, p, word) == Prefix + p.expr.value.name
    ensures p.expr.value.ByNr? && Resolve(ed, p.expr.value).Some? ==>
              BufferName(ed, p, word) == Prefix + ed.bufs[p.expr.value.nr].name
  {
  }

  /**
   * `getPreviewContents`: a scratch previewer's own lines; for a file
   * previewer the lines of its `expr` buffer when that one is listed, else
   * the file at `path` split on newlines (the lines join back to the file's
   * text exactly, one more line than it has newlines), and an unreadable
   * file fails the action; nothing when there is neither.
   */
  lemma ContentsSources(ed: Editor, p: Previewer, files: map<string, string>)
    requires !p.TermPreviewer?
    ensures p.NoFilePreviewer? ==> Contents(ed, p, files) == W.Success(p.contents)
    ensures p.BufferPreviewer? && ExprSet(p.expr) && ExprListed(ed, p.expr.value) ==>
              Contents(ed, p, files) == W.Success(ed.bufs[Resolve(ed, p.expr.value).value].lines)
    ensures p.BufferPreviewer? && !(ExprSet(p.expr) && ExprListed(ed, p.expr.value)) && p.path != "" ==>
              && (p.path !in files ==> Contents(ed, p, files) == W.Failure(ReadFailed(p.path)))
              && (p.path in files ==>
                    && Contents(ed, p, files).Success?
                    && Text.Join(Contents(ed, p, files).value, '\n') == files[p.path]
                    && |Contents(ed, p, files).value| == Text.Count(files[p.path], '\n') + 1)
    ensures p.BufferPreviewer? && !(ExprSet(p.expr) && ExprListed(ed, p.expr.value)) && p.path == "" ==>
              Contents(ed, p, files) == W.Success([])
  {
    if p.BufferPreviewer? && p.path in files {
      Text.JoinSplit(files[p.path], '\n');
      Text.SplitCount(files[p.path], '\n');
    }
  }

  /** The `expr` buffer of a file previewer, when it designates one. */
  predicate ExprResolves(ed: Editor, p: Previewer)
  {
    p.BufferPreviewer? && ExprSet(p.expr) ==> Resolve(ed, p.expr.value).Some?
  }

  /**
   * Opening the preview buffer by name does not change what it is filled
   * with: the contents read after `edit` are those of the editor before the
   * preview, since the preview buffer's name differs from its source's.
   */
  lemma ContentsAfterEdit(u: Ui, ed: Editor, p: Previewer, word: string, files: map<string, string>)
    requires Valid(ed) && WindowReachable(u, ed) && !p.TermPreviewer? && ExprResolves(ed, p)
    ensures Contents(Edit(FocusWindow(u, ed).1, BufferName(ed, p, word)), p, files) == Contents(ed, p, files)
  {
    if p.BufferPreviewer? && ExprSet(p.expr) {
      FocusWindowFacts(u, ed);
      var ed1 := FocusWindow(u, ed).1;
      var name := BufferName(ed, p, word);
      var e := p.expr.value;
      var b0 := Resolve(ed, e).value;
      assert |name| > |ed.bufs[b0].name|;
      EditKeepsOthers(ed1, name, b0);
      var ed2 := Edit(ed1, name);
      assert Resolve(ed2, e) == Resolve(ed, e);
    }
  }

  /** `edit name` changes no buffer of another name and forgets no name. */
  lemma EditKeepsOthers(ed: Editor, name: string, b: BufNr)
    requires Valid(ed) && name != "" && b in ed.bufs && ed.bufs[b].name != name
    ensures var r := Edit(ed, name);
            && ed.bufs.Keys <= r.bufs.Keys && r.bufs[b] == ed.bufs[b]
            && (forall n :: n in ed.names ==> n in r.names && r.names[n] == ed.names[n])
  {
    if HasCurrentWindow(ed) && name in ed.names {
      assert ed.bufs[ed.names[name]].name == name;
    }
  }

  /**
   * A preview whose buffer name is not listed creates (or relists) the
   * buffer of that name in the preview window and fills it: a listed
   * scratch buffer holding the previewer's contents with its syntax, found
   * under that name afterwards, so the next preview of the same name
   * reuses it.  An unreadable file fails the action.
   */
  lemma FreshBufferFilled(u: Ui, ed: Editor, p: Previewer, word: string, files: map<string, string>)
    requires Valid(ed) && WindowReachable(u, ed) && !p.TermPreviewer? && !Rejected(p) && ExprResolves(ed, p)
    requires !BufListedName(ed, BufferName(ed, p, word))
    ensures var s := PreviewBuffer(u, ed, p, word, files);
            var name := BufferName(ed, p, word);
            var text := Contents(ed, p, files);
            && (text.Failure? ==> s.outcome == Thrown(text.error))
            && (s.outcome == Flag(Persist) ==>
                  && text.Success?
                  && s.ui.previewWinId in s.ed.wins
                  && var b := s.ed.wins[s.ui.previewWinId].buf;
                     && b in s.ed.bufs
                     && s.ed.bufs[b].name == name && s.ed.bufs[b].listed
                     && s.ed.bufs[b].buftype == NoFile && s.ed.bufs[b].lines == text.value
                     && (p.Syntax() != "" ==> s.ed.bufs[b].syntax == Named(p.Syntax()))
                     && (p.Syntax() == "" && p.BufferPreviewer? ==> s.ed.bufs[b].syntax == Detected)
                     && BufListedName(s.ed, name) && s.ed.names[name] == b)
  {
    FocusWindowFacts(u, ed);
    ContentsAfterEdit(u, ed, p, word, files);
    var name := BufferName(ed, p, word);
    var (u1, ed1) := FocusWindow(u, ed);
    var ed2 := Edit(ed1, name);
    if Contents(ed2, p, files).Success? {
      var text := Contents(ed2, p, files).value;
      FillFacts(ed2, p, text);
      var ed3 := Fill(ed2, p, text);
      var b := CurBuf(ed3);
      HighlightWindow(u1, ed3, p, b);
      HighlightFails(u1, ed3, p, b);
      var s := Highlight(u1, ed3, p, b);
      if s.outcome == Flag(Persist) {
        assert s.ed.wins[s.ui.previewWinId].buf == b;
        assert s.ed.bufs[b].name == name;
      }
    }
  }

  /**
   * A preview whose buffer name is listed only shows that buffer in the
   * preview window: no existing buffer is refilled or otherwise changed.
   * The highlight is still applied again: the old line match of the
   * preview window is replaced by one on `lineNr`, recorded for it, and the
   * previewer's spans are drawn on the reused buffer.
   */
  lemma ListedBufferReused(u: Ui, ed: Editor, p: Previewer, word: string, files: map<string, string>)
    requires Valid(ed) && WindowReachable(u, ed) && !p.TermPreviewer? && !Rejected(p)
    requires BufListedName(ed, BufferName(ed, p, word))
    ensures var s := PreviewBuffer(u, ed, p, word, files);
            && ed.bufs.Keys <= s.ed.bufs.Keys
            && (forall c :: c in ed.bufs ==> s.ed.bufs[c] == ed.bufs[c])
            && (s.outcome == Flag(Persist) ==>
                  && s.ui.previewWinId in s.ed.wins
                  && var w := s.ui.previewWinId;
                     && s.ed.wins[w].buf == ed.names[BufferName(ed, p, word)]
                     && s.ed.spans == ed.spans + SpanCalls(s.ed.wins[w].buf, p.Highlights())
                     && (p.LineNr() == 0 ==> s.ui.matchIds == u.matchIds)
                     && (p.LineNr() != 0 ==>
                           && w in s.ui.matchIds && s.ui.matchIds == u.matchIds[w := s.ui.matchIds[w]]
                           && s.ui.matchIds[w] in s.ed.wins[w].matches
                           && s.ed.wins[w].matches[s.ui.matchIds[w]] == p.LineNr()))
  {
    FocusWindowFacts(u, ed);
    var name := BufferName(ed, p, word);
    var (u1, ed1) := FocusWindow(u, ed);
    var ed2 := SwitchBuffer(ed1, name);
    HighlightWindow(u1, ed2, p, CurBuf(ed2));
    if !Highlight(u1, ed2, p, CurBuf(ed2)).outcome.Thrown? {
      HighlightMatchIds(u1, ed2, p, CurBuf(ed2));
      HighlightReplacesMatch(u1, ed2, p, CurBuf(ed2));
    }
  }

  // ---------------------------------------------------------------------
  // preview
  // ---------------------------------------------------------------------

  /**
   * Asking again for the target on show closes the preview and reports
   * nothing to keep, before and regardless of what the previewer would be.
   */
  lemma ToggleTurnsOff(u: Ui, ed: Editor, action: Json.Value, previewer: W.Option<Previewer>,
                       word: string, files: map<string, string>)
    requires u.previewWinId > 0 && action == u.previewedTarget
    ensures var s := Preview(u, ed, action, previewer, word, files);
            && s == Step(Flag(None), Close(u, ed).0, Close(u, ed).1)
            && s == Preview(u, ed, action, W.None, "", map[])
            && s.ui.previewWinId == -1
  {
  }

  /**
   * Apart from the toggle, a preview reports nothing to keep exactly when
   * there is no previewer or the previewer has nothing to show, and then
   * it changes nothing at all.
   */
  lemma NothingToShow(u: Ui, ed: Editor, action: Json.Value, previewer: W.Option<Previewer>,
                      word: string, files: map<string, string>)
    requires !IsToggle(u, action)
    ensures var s := Preview(u, ed, action, previewer, word, files);
            && (s.outcome == Flag(None) <==> previewer.None? || Rejected(previewer.value))
            && (s.outcome == Flag(None) ==> s.ui == u && s.ed == ed)
  {
    if previewer.Some? && !previewer.value.TermPreviewer? && !Rejected(previewer.value) {
      var p := previewer.value;
      var name := BufferName(ed, p, word);
      var (u1, ed1) := FocusWindow(u, ed);
      if !BufListedName(ed, name) {
        var ed2 := Edit(ed1, name);
        if Contents(ed2, p, files).Success? {
          var ed3 := Fill(ed2, p, Contents(ed2, p, files).value);
          HighlightFails(u1, ed3, p, CurBuf(ed3));
        }
      } else {
        var ed2 := SwitchBuffer(ed1, name);
        HighlightFails(u1, ed2, p, CurBuf(ed2));
      }
    }
  }

  /** `jump` moves the cursor of the current window to the line, clamped to the buffer, and nothing else. */
  lemma JumpCursor(ed: Editor, p: Previewer)
    requires HasCurrentWindow(ed)
    ensures var r := Jump(ed, p);
            && r.bufs == ed.bufs && r.cur == ed.cur && r.wins.Keys == ed.wins.Keys
            && (forall w :: w in ed.wins ==> r.wins[w].buf == ed.wins[w].buf && r.wins[w].matches == ed.wins[w].matches)
            && (forall w :: w in ed.wins && w != ed.cur ==> r.wins[w] == ed.wins[w])
            && (p.LineNr() < 1 ==> r == ed)
            && (p.LineNr() >= 1 ==>
                  var n := LineCount(ed, CurBuf(ed));
                  r.wins[ed.cur].cursor == (if p.LineNr() <= n then p.LineNr() else n))
  {
  }

  /**
   * A preview that is kept records what it showed: the target becomes the
   * previewed one, the buffer shown in the preview window joins the
   * tracked buffers (at the end, once), the preview window exists under a
   * positive handle, and the caller's window has the focus again.
   */
  lemma PersistRecords(u: Ui, ed: Editor, action: Json.Value, previewer: W.Option<Previewer>,
                       word: string, files: map<string, string>)
    requires Valid(ed) && HasCurrentWindow(ed) && WindowReachable(u, ed)
    ensures var s := Preview(u, ed, action, previewer, word, files);
            s.outcome == Flag(Persist) ==>
              && !IsToggle(u, action) && previewer.Some?
              && Valid(s.ed)
              && s.ui.previewedTarget == action
              && s.ui.previewWinId > 0 && s.ui.previewWinId in s.ed.wins
              && (u.previewWinId >= 0 ==> s.ui.previewWinId == u.previewWinId)
              && s.ui.previewBufnrs == Add(u.previewBufnrs, s.ed.wins[s.ui.previewWinId].buf)
              && s.ed.cur == ed.cur
  {
    if !IsToggle(u, action) && previewer.Some? {
      var p := previewer.value;
      WindowHandle(u, ed, p, word, files);
      var r := Render(u, ed, p, word, files);
      if r.outcome == Flag(Persist) {
        JumpCursor(r.ed, p);
        var ed1 := Jump(r.ed, p);
        assert CurBuf(ed1) == ed1.wins[r.ui.previewWinId].buf;
        assert WinGetId(ed) == ed.cur;
      }
    }
  }

  // ---------------------------------------------------------------------
  // One line match per window
  // ---------------------------------------------------------------------

  /**
   * Every match in a window is the one the controller recorded for that
   * window, so a window carries at most one line match and it can be
   * deleted by its recorded id.
   */
  ghost predicate OneOverlay(u: Ui, ed: Editor)
  {
    forall w, m :: w in ed.wins && m in ed.wins[w].matches ==> w in u.matchIds && u.matchIds[w] == m
  }

  /** Editor steps that keep the matches of every surviving window keep the overlay. */
  lemma OverlayKept(u: Ui, ed: Editor, r: Editor)
    requires OneOverlay(u, ed) && MatchesKept(ed, r)
    ensures OneOverlay(u, r)
  {
  }

  /** `highlight` in the current preview window keeps a single, recorded match. */
  lemma HighlightOverlay(u: Ui, ed: Editor, p: Previewer, b: BufNr)
    requires Valid(ed) && OneOverlay(u, ed) && HasCurrentWindow(ed) && ed.cur == u.previewWinId
    ensures var s := Highlight(u, ed, p, b);
            OneOverlay(s.ui, s.ed)
  {
    HighlightFails(u, ed, p, b);
    var s := Highlight(u, ed, p, b);
    var w := u.previewWinId;
    if !s.outcome.Thrown? {
      ClearedShape(u, ed);
      var ed1 := Cleared(u, ed);
      if HasOldMatch(u, w) {
        assert forall m :: m in ed.wins[w].matches ==> m == u.matchIds[w];
      } else {
        assert forall m :: m !in ed.wins[w].matches;
      }
      assert forall m :: m !in ed1.wins[w].matches;
      assert OneOverlay(u, ed1.(wins := ed1.wins - {w}));
    }
  }

  /** `close` keeps the overlay. */
  lemma CloseOverlay(u: Ui, ed: Editor)
    requires OneOverlay(u, ed)
    ensures var (u1, ed1) := Close(u, ed);
            OneOverlay(u1, ed1)
  {
  }

  /**
   * One `preview` keeps the overlay, for a consistent editor and a handle
   * that is unset or live; `PreviewInv` keeps those two as well.
   */
  lemma PreviewOverlay(u: Ui, ed: Editor, action: Json.Value, previewer: W.Option<Previewer>,
                       word: string, files: map<string, string>)
    requires Valid(ed) && WindowReachable(u, ed) && OneOverlay(u, ed)
    ensures var s := Preview(u, ed, action, previewer, word, files);
            OneOverlay(s.ui, s.ed)
  {
    if IsToggle(u, action) {
      CloseOverlay(u, ed);
    } else if previewer.Some? {
      var p := previewer.value;
      var r := Render(u, ed, p, word, files);
      RenderOverlay(u, ed, p, word, files);
      WindowHandle(u, ed, p, word, files);
      if r.outcome == Flag(Persist) {
        JumpCursor(r.ed, p);
      }
    }
  }

  /** Rendering keeps the overlay. */
  lemma RenderOverlay(u: Ui, ed: Editor, p: Previewer, word: string, files: map<string, string>)
    requires Valid(ed) && WindowReachable(u, ed) && OneOverlay(u, ed)
    ensures var s := Render(u, ed, p, word, files);
            OneOverlay(s.ui, s.ed)
  {
    if p.TermPreviewer? {
      FocusWindowFacts(u, ed);
    } else if !Rejected(p) {
      var name := BufferName(ed, p, word);
      if !BufListedName(ed, name) {
        FreshOverlay(u, ed, p, word, files);
      } else {
        FocusWindowFacts(u, ed);
        var (u1, ed1) := FocusWindow(u, ed);
        OverlayKept(u1, ed, ed1);
        var ed2 := SwitchBuffer(ed1, name);
        HighlightOverlay(u1, ed2, p, CurBuf(ed2));
      }
    }
  }

  /** The fill path of `RenderOverlay`. */
  lemma FreshOverlay(u: Ui, ed: Editor, p: Previewer, word: string, files: map<string, string>)
    requires Valid(ed) && WindowReachable(u, ed) && OneOverlay(u, ed)
    requires !p.TermPreviewer? && !Rejected(p) && !BufListedName(ed, BufferName(ed, p, word))
    ensures var s := PreviewBuffer(u, ed, p, word, files);
            OneOverlay(s.ui, s.ed)
  {
    FocusWindowFacts(u, ed);
    var name := BufferName(ed, p, word);
    var (u1, ed1) := FocusWindow(u, ed);
    OverlayKept(u1, ed, ed1);
    var ed2 := Edit(ed1, name);
    OverlayKept(u1, ed1, ed2);
    if Contents(ed2, p, files).Success? {
      var text := Contents(ed2, p, files).value;
      FillFacts(ed2, p, text);
      var ed3 := Fill(ed2, p, text);
      HighlightOverlay(u1, ed3, p, CurBuf(ed3));
    }
  }

  /**
   * What holds between calls: the editor is consistent, the recorded
   * handle is unset or names a live window, and every window carries at
   * most the one line match recorded for it.
   */
  ghost predicate Inv(u: Ui, ed: Editor)
  {
    Valid(ed) && WindowReachable(u, ed) && OneOverlay(u, ed)
  }

  /** A new controller over an editor without line matches starts in the invariant. */
  lemma InitialInv(ed: Editor)
    requires Valid(ed) && forall w :: w in ed.wins ==> ed.wins[w].matches == map[]
    ensures Inv(Initial, ed)
  {
  }

  /** `close` keeps the invariant. */
  lemma CloseInv(u: Ui, ed: Editor)
    requires Inv(u, ed)
    ensures var (u1, ed1) := Close(u, ed);
            Inv(u1, ed1)
  {
    CloseOverlay(u, ed);
  }

  /** `preview` keeps the invariant, whatever its outcome. */
  lemma PreviewInv(u: Ui, ed: Editor, action: Json.Value, previewer: W.Option<Previewer>,
                   word: string, files: map<string, string>)
    requires Inv(u, ed)
    ensures var s := Preview(u, ed, action, previewer, word, files);
            Inv(s.ui, s.ed)
  {
    PreviewOverlay(u, ed, action, previewer, word, files);
    if IsToggle(u, action) {
      CloseInv(u, ed);
    } else if previewer.Some? {
      var p := previewer.value;
      WindowHandle(u, ed, p, word, files);
    }
  }

  /** A call the list UI makes on the controller. */
  datatype Call =
    | PreviewCall(action: Json.Value, previewer: W.Option<Previewer>, word: string, files: map<string, string>)
    | CloseCall

  /** The controller and the editor after a sequence of calls. */
  function Run(u: Ui, ed: Editor, calls: seq<Call>): (Ui, Editor)
    decreases |calls|
  {
    if calls == [] then (u, ed)
    else
      var (u1, ed1) :=
        match calls[0]
        case PreviewCall(a, p, w, f) => var s := Preview(u, ed, a, p, w, f); (s.ui, s.ed)
        case CloseCall => Close(u, ed);
      Run(u1, ed1, calls[1..])
  }

  /**
   * However `preview` and `close` follow each other, from a state in the
   * invariant (a new controller is one, by `InitialInv`), every window
   * shows at most the one line match the controller can find and delete
   * again.  Closing the preview window behind the controller's back is not
   * such a call; `StaleHandlePreview` shows what follows it.
   */
  lemma {:induction false} RunInv(u: Ui, ed: Editor, calls: seq<Call>)
    requires Inv(u, ed)
    ensures var (u1, ed1) := Run(u, ed, calls);
            Inv(u1, ed1)
    decreases |calls|
  {
    if calls != [] {
      match calls[0]
      case PreviewCall(a, p, w, f) =>
        PreviewInv(u, ed, a, p, w, f);
        var s := Preview(u, ed, a, p, w, f);
        RunInv(s.ui, s.ed, calls[1..]);
      case CloseCall =>
        CloseInv(u, ed);
        RunInv(Close(u, ed).0, Close(u, ed).1, calls[1..]);
    }
  }

  /**
   * At most one preview window per controller: every window is one of the
   * caller's windows `user`, or the recorded preview window.
   */
  predicate OnePreviewWindow(u: Ui, ed: Editor, user: set<WinId>)
  {
    ed.wins.Keys <= user + (if u.previewWinId > 0 then {u.previewWinId} else {})
  }

  /** `close` keeps a single preview window (it closes it). */
  lemma CloseOne(u: Ui, ed: Editor, user: set<WinId>)
    requires OnePreviewWindow(u, ed, user)
    ensures var (u1, ed1) := Close(u, ed);
            OnePreviewWindow(u1, ed1, user)
  {
    if u.previewWinId > 0 {
      var e := CloseWindow(WinGotoId(ed, u.previewWinId));
      assert e.wins.Keys <= ed.wins.Keys - {u.previewWinId};
    }
  }

  /** `preview` opens a window only when none is recorded, and then records it. */
  lemma PreviewOne(u: Ui, ed: Editor, action: Json.Value, previewer: W.Option<Previewer>,
                   word: string, files: map<string, string>, user: set<WinId>)
    requires Inv(u, ed) && OnePreviewWindow(u, ed, user)
    ensures var s := Preview(u, ed, action, previewer, word, files);
            OnePreviewWindow(s.ui, s.ed, user)
  {
    if IsToggle(u, action) {
      CloseOne(u, ed, user);
    } else if previewer.Some? {
      WindowHandle(u, ed, previewer.value, word, files);
    }
  }

  /** Along any sequence of calls the controller has at most one preview window open. */
  lemma {:induction false} RunOne(u: Ui, ed: Editor, calls: seq<Call>, user: set<WinId>)
    requires Inv(u, ed) && OnePreviewWindow(u, ed, user)
    ensures var (u1, ed1) := Run(u, ed, calls);
            OnePreviewWindow(u1, ed1, user)
    decreases |calls|
  {
    if calls != [] {
      match calls[0]
      case PreviewCall(a, p, w, f) =>
        PreviewInv(u, ed, a, p, w, f);
        PreviewOne(u, ed, a, p, w, f, user);
        var s := Preview(u, ed, a, p, w, f);
        RunOne(s.ui, s.ed, calls[1..], user);
      case CloseCall =>
        CloseInv(u, ed);
        CloseOne(u, ed, user);
        RunOne(Close(u, ed).0, Close(u, ed).1, calls[1..], user);
    }
  }

  // ---------------------------------------------------------------------
  // Terminal previews
  // ---------------------------------------------------------------------

  /**
   * As written, `terminalBufnr` is only ever reset to -1, never set to the
   * new terminal's buffer: from a new controller it stays -1 through every
   * `preview` and `close`, so the old-terminal deletion never runs.
   */
  lemma TerminalBufnrStaysUnset(u: Ui, ed: Editor, action: Json.Value, previewer: W.Option<Previewer>,
                                word: string, files: map<string, string>)
    requires u.terminalBufnr == -1
    ensures Initial.terminalBufnr == -1
    ensures Preview(u, ed, action, previewer, word, files).ui.terminalBufnr == -1
    ensures Close(u, ed).0.terminalBufnr == -1
  {
  }

  /**
   * A terminal preview runs `cmds` in a new listed buffer shown in the
   * preview window; with no old terminal recorded, no other buffer changes.
   */
  lemma TerminalBuffer(u: Ui, ed: Editor, cmds: seq<string>)
    requires Valid(ed) && WindowReachable(u, ed) && u.terminalBufnr == -1
    ensures var s := PreviewTerminal(u, ed, cmds);
            && s.ui.previewWinId in s.ed.wins
            && var t := s.ed.wins[s.ui.previewWinId].buf;
               && t !in ed.bufs && t in s.ed.bufs && s.ed.bufs[t].listed && s.ed.bufs[t].buftype == Terminal(cmds)
               && ed.bufs.Keys <= s.ed.bufs.Keys
               && (forall c :: c in ed.bufs ==> s.ed.bufs[c] == ed.bufs[c])
  {
    TerminalWindow(u, ed, cmds);
    if u.previewWinId < 0 {
      FocusWindowFacts(u, ed);
    }
  }

  /**
   * A terminal `preview` with no old terminal recorded is kept: the
   * preview window shows a new listed buffer running `cmds`, tracked for
   * `close`, every other buffer is as it was, and the caller keeps focus.
   */
  lemma TerminalPreview(u: Ui, ed: Editor, a: Json.Value, cmds: seq<string>)
    requires Valid(ed) && HasCurrentWindow(ed) && WindowReachable(u, ed) && u.terminalBufnr == -1
    requires !IsToggle(u, a)
    ensures var s := Preview(u, ed, a, W.Some(TermPreviewer(cmds)), "", map[]);
            && s.outcome == Flag(Persist) && Valid(s.ed) && HasCurrentWindow(s.ed)
            && s.ui.terminalBufnr == -1 && s.ui.previewedTarget == a
            && s.ui.previewWinId in s.ed.wins
            && (u.previewWinId >= 0 ==> s.ui.previewWinId == u.previewWinId)
            && var t := s.ed.wins[s.ui.previewWinId].buf;
               && t !in ed.bufs && t in s.ed.bufs && s.ed.bufs[t].listed && s.ed.bufs[t].buftype == Terminal(cmds)
               && t in s.ui.previewBufnrs
               && (forall c :: c in u.previewBufnrs ==> c in s.ui.previewBufnrs)
               && (forall c :: c in ed.bufs ==> c in s.ed.bufs && s.ed.bufs[c] == ed.bufs[c])
  {
    var p := TermPreviewer(cmds);
    TerminalWindow(u, ed, cmds);
    TerminalBuffer(u, ed, cmds);
    var r := PreviewTerminal(u, ed, cmds);
    PreviewAfterRender(u, ed, a, p, "", map[]);
    assert Jump(r.ed, p) == r.ed;
    assert WinGetId(ed) == ed.cur && ed.cur in r.ed.wins;
    assert CurBuf(r.ed) == r.ed.wins[r.ui.previewWinId].buf;
  }

  /** A kept render is followed by the jump, the bookkeeping and the return to the caller's window. */
  lemma PreviewAfterRender(u: Ui, ed: Editor, a: Json.Value, p: Previewer, word: string, files: map<string, string>)
    requires !IsToggle(u, a) && Render(u, ed, p, word, files).outcome == Flag(Persist)
    ensures var r := Render(u, ed, p, word, files);
            var ed1 := Jump(r.ed, p);
            Preview(u, ed, a, W.Some(p), word, files)
              == Step(Flag(Persist),
                      r.ui.(previewBufnrs := Add(r.ui.previewBufnrs, CurBuf(ed1)), previewedTarget := a),
                      WinGotoId(ed1, WinGetId(ed)))
  {
  }

  /**
   * Consequently terminal previews accumulate: after a second terminal
   * preview in the same window, the first terminal buffer is still listed
   * and still running its command; only `close` deletes it, as one of the
   * tracked buffers.
   */
  lemma TerminalPreviewsAccumulate(u: Ui, ed: Editor, a1: Json.Value, c1: seq<string>, a2: Json.Value, c2: seq<string>)
    requires Valid(ed) && HasCurrentWindow(ed) && WindowReachable(u, ed) && u.terminalBufnr == -1
    requires !IsToggle(u, a1) && a1 != a2
    ensures var s1 := Preview(u, ed, a1, W.Some(TermPreviewer(c1)), "", map[]);
            var s2 := Preview(s1.ui, s1.ed, a2, W.Some(TermPreviewer(c2)), "", map[]);
            && s1.outcome == Flag(Persist) && s2.outcome == Flag(Persist)
            && s1.ui.previewWinId in s1.ed.wins
            && var t1 := s1.ed.wins[s1.ui.previewWinId].buf;
               && t1 in s2.ed.bufs && s2.ed.bufs[t1].listed && s2.ed.bufs[t1].buftype == Terminal(c1)
               && t1 in s2.ui.previewBufnrs
               && s2.ui.previewWinId == s1.ui.previewWinId && s2.ui.previewWinId in s2.ed.wins
               && s2.ed.wins[s2.ui.previewWinId].buf != t1
  {
    TerminalPreview(u, ed, a1, c1);
    var s1 := Preview(u, ed, a1, W.Some(TermPreviewer(c1)), "", map[]);
    TerminalPreview(s1.ui, s1.ed, a2, c2);
    var t1 := s1.ed.wins[s1.ui.previewWinId].buf;
    assert t1 in s1.ed.bufs && t1 in s1.ui.previewBufnrs;
    var s2 := Preview(s1.ui, s1.ed, a2, W.Some(TermPreviewer(c2)), "", map[]);
    assert s2.ui.previewWinId in s2.ed.wins;
    var t2 := s2.ed.wins[s2.ui.previewWinId].buf;
    assert t2 !in s1.ed.bufs;
    assert t2 != t1;
  }
}

=== FILE: preview_spec.dfy ===
/**
 * The preview controller of the ddu fuzzy-finder's `ff` UI, as pure state
 * transitions.  The controller's own state is a `Ui` record (the fields of
 * the `PreviewUi` class); every public call takes that state and the
 * editor's state and yields new ones.  The class in `preview_ui.dfy`
 * performs the same transitions in place and is proved to agree with the
 * functions here; the lemmas in `preview_laws.dfy` state what the
 * controller promises.
 */
module PreviewSpec {

  import opened Editor
  import Json
  import Text
  import W = Wrappers

  /** The flags a UI action reports to ddu (only the two this controller uses). */
  datatype ActionFlags = None | Persist

  /** An error raised by an editor call or a file read; it ends the action. */
  datatype Failure = ReadFailed(path: string) | MatchNotFound(id: int, win: WinId)

  datatype Outcome = Flag(flags: ActionFlags) | Thrown(failure: Failure)

  /** A previewer's `expr`: a buffer number or a buffer name. */
  datatype BufExpr = ByNr(nr: int) | ByName(name: string)

  /**
   * What the previewer-resolution service returns for an item.  A missing
   * `path`, `syntax` or `lineNr` is written "" or 0, which JavaScript
   * treats as false exactly like a missing one; likewise an absent
   * `contents` and an empty one.
   */
  datatype Previewer =
    | TermPreviewer(cmds: seq<string>)
    | BufferPreviewer(expr: W.Option<BufExpr>, path: string, lineNr: int, syntax: string, highlights: seq<Span>)
    | NoFilePreviewer(contents: seq<string>, lineNr: int, syntax: string, highlights: seq<Span>)
  {
    function LineNr(): int
    {
      if TermPreviewer? then 0 else lineNr
    }

    function Highlights(): seq<Span>
    {
      if TermPreviewer? then [] else highlights
    }

    function Syntax(): string
    {
      if TermPreviewer? then "" else syntax
    }
  }

  /** The fields of `PreviewUi`. */
  datatype Ui = Ui(
    previewWinId: int,
    terminalBufnr: int,
    previewedTarget: Json.Value,
    matchIds: map<int, int>,
    previewBufnrs: seq<BufNr>)

  /** The state of a new controller. */
  const Initial := Ui(-1, -1, Json.Obj([]), map[], [])

  /** The result of an action: its outcome, the controller state and the editor after it. */
  datatype Step = Step(outcome: Outcome, ui: Ui, ed: Editor)

  // ---------------------------------------------------------------------
  // Teardown
  // ---------------------------------------------------------------------

  /**
   * `Set.prototype.add`: a JavaScript set keeps its members in insertion
   * order and iterates in that order.
   */
  function Add(s: seq<BufNr>, b: BufNr): (r: seq<BufNr>)
    ensures forall c :: c in r <==> c in s || c == b
    ensures |s| <= |r| <= |s| + 1 && r[..|s|] == s
    ensures b in s ==> r == s
  {
    if b in s then s else s + [b]
  }

  /** The editor after `bdelete!` of every member of `tracked` that is still listed. */
  function DeleteListed(ed: Editor, tracked: seq<BufNr>): (r: Editor)
    ensures r == ed.(bufs := r.bufs) && r.bufs.Keys == ed.bufs.Keys
    ensures forall b :: b in ed.bufs ==> r.bufs[b].name == ed.bufs[b].name
    ensures Valid(ed) ==> Valid(r)
  {
    ed.(bufs := map b | b in ed.bufs :: if b in tracked && ed.bufs[b].listed then Deleted(ed.bufs[b]) else ed.bufs[b])
  }

  /** Deleting no buffer changes nothing. */
  lemma DeleteListedNone(ed: Editor)
    ensures DeleteListed(ed, []) == ed
  {
    assert DeleteListed(ed, []).bufs == ed.bufs;
  }

  /** The sweep handles one more tracked buffer: `if buflisted(b) | bdelete! b | endif`. */
  lemma DeleteListedStep(ed: Editor, done: seq<BufNr>, b: BufNr)
    ensures var e := DeleteListed(ed, done);
            (if BufListed(e, b) then Bdelete(e, b) else e) == DeleteListed(ed, done + [b])
  {
    var e := DeleteListed(ed, done);
    var e' := if BufListed(e, b) then Bdelete(e, b) else e;
    assert e'.bufs == DeleteListed(ed, done + [b]).bufs;
  }

  /** `close`: closes the preview window if one is recorded, then deletes the tracked buffers still listed. */
  function Close(u: Ui, ed: Editor): (r: (Ui, Editor))
    ensures r.0 == u.(previewWinId := if u.previewWinId > 0 then -1 else u.previewWinId)
    ensures r.1.bufs.Keys == ed.bufs.Keys && r.1.names == ed.names
    ensures Valid(ed) ==> Valid(r.1)
  {
    var (u1, ed1) :=
      if u.previewWinId > 0 then
        var saveId := WinGetId(ed);
        (u.(previewWinId := -1), WinGotoId(CloseWindow(WinGotoId(ed, u.previewWinId)), saveId))
      else (u, ed);
    (u1, DeleteListed(ed1, u.previewBufnrs))
  }

  // ---------------------------------------------------------------------
  // Naming and contents of the preview buffer
  // ---------------------------------------------------------------------

  /** JavaScript truthiness of a previewer's `expr`. */
  predicate ExprSet(e: W.Option<BufExpr>)
  {
    e.Some? && match e.value
               case ByNr(n) => n != 0
               case ByName(s) => s != ""
  }

  /** The buffer an `expr` designates, if any: by number, or by exact name. */
  function Resolve(ed: Editor, e: BufExpr): (r: W.Option<BufNr>)
    ensures r.Some? ==> r.value in ed.bufs
    ensures e.ByNr? ==> (r.Some? <==> e.nr in ed.bufs) && (r.Some? ==> r.value == e.nr)
    ensures Valid(ed) && e.ByName? ==>
              (r.Some? <==> e.name in ed.names) && (r.Some? ==> ed.bufs[r.value].name == e.name)
  {
    match e
    case ByNr(n) => if n in ed.bufs then W.Some(n) else W.None
    case ByName(s) => if s in ed.names && ed.names[s] in ed.bufs then W.Some(ed.names[s]) else W.None
  }

  /** `bufname(expr)`: "" when no buffer matches. */
  function ExprName(ed: Editor, e: BufExpr): (name: string)
    ensures Valid(ed) && e.ByName? ==> name == e.name || name == ""
    ensures Valid(ed) && e.ByName? && e.name != "" ==> (name == e.name <==> Resolve(ed, e).Some?)
    ensures e.ByNr? && e.nr in ed.bufs ==> name == ed.bufs[e.nr].name
    ensures name != "" ==> Resolve(ed, e).Some?
  {
    match Resolve(ed, e)
    case Some(b) => ed.bufs[b].name
    case None => ""
  }

  /** `buflisted(expr)`. */
  predicate ExprListed(ed: Editor, e: BufExpr)
    ensures e.ByNr? ==> (ExprListed(ed, e) <==> BufListed(ed, e.nr))
    ensures Valid(ed) && e.ByName? ==> (ExprListed(ed, e) <==> BufListedName(ed, e.name))
  {
    Resolve(ed, e).Some? && ed.bufs[Resolve(ed, e).value].listed
  }

  /** The previewer is refused before anything is opened. */
  predicate Rejected(p: Previewer)
  {
    || (p.NoFilePreviewer? && |p.contents| == 0)
    || (p.BufferPreviewer? && !ExprSet(p.expr) && p.path == "")
  }

  const Prefix := "ddu-ff:"

  /** `getPreviewBufferName`: the name under which a preview buffer is created and found again. */
  function BufferName(ed: Editor, p: Previewer, word: string): (name: string)
    requires !p.TermPreviewer?
    ensures |name| >= |Prefix| && name[..|Prefix|] == Prefix
  {
    if p.BufferPreviewer? then
      Prefix + (if ExprSet(p.expr) then ExprName(ed, p.expr.value) else p.path)
    else Prefix + word
  }

  /**
   * `getPreviewContents`: the lines of a listed source buffer, else the
   * file at `path` split on newlines, else nothing; `files` maps a path to
   * its decoded text, and a path it lacks cannot be read.
   */
  function Contents(ed: Editor, p: Previewer, files: map<string, string>): (r: W.Result<seq<string>, Failure>)
    requires !p.TermPreviewer?
    ensures r.Failure? ==> p.BufferPreviewer? && p.path !in files && r.error == ReadFailed(p.path)
    ensures p.NoFilePreviewer? ==> r == W.Success(p.contents)
  {
    if p.BufferPreviewer? then
      if ExprSet(p.expr) && ExprListed(ed, p.expr.value) then
        W.Success(ed.bufs[Resolve(ed, p.expr.value).value].lines)
      else if p.path != "" then
        if p.path in files then W.Success(Text.Split(files[p.path], '\n'))
        else W.Failure(ReadFailed(p.path))
      else W.Success([])
    else W.Success(p.contents)
  }

  // ---------------------------------------------------------------------
  // Rendering
  // ---------------------------------------------------------------------

  /** Opens the preview window and records its handle. */
  function OpenWindow(u: Ui, ed: Editor): (r: (Ui, Editor))
    ensures r.0 == u.(previewWinId := r.0.previewWinId)
    ensures Valid(ed) ==> r.0.previewWinId > 0 && r.0.previewWinId !in ed.wins && r.0.previewWinId == r.1.cur
    ensures r.1.wins.Keys == ed.wins.Keys + {r.1.cur}
  {
    var ed1 := OpenPreviewWindow(ed);
    (u.(previewWinId := WinGetId(ed1)), ed1)
  }

  /** Opens the preview window when none is recorded, else focuses the recorded one. */
  function FocusWindow(u: Ui, ed: Editor): (r: (Ui, Editor))
    ensures r.0 == u.(previewWinId := r.0.previewWinId)
    ensures u.previewWinId >= 0 ==> r.0 == u
    ensures r.1.spans == ed.spans && r.1.names == ed.names
  {
    if u.previewWinId < 0 then OpenWindow(u, ed)
    else (u, WinGotoId(ed, u.previewWinId))
  }

  /** `previewTerminal`: a fresh buffer in the preview window becomes a terminal running `cmds`. */
  function PreviewTerminal(u: Ui, ed: Editor, cmds: seq<string>): (r: Step)
    ensures r.outcome == Flag(Persist)
    ensures r.ui == u.(previewWinId := r.ui.previewWinId, terminalBufnr := r.ui.terminalBufnr)
    ensures r.ui.terminalBufnr == u.terminalBufnr || r.ui.terminalBufnr == -1
  {
    var (u1, ed1) :=
      if u.previewWinId < 0 then OpenWindow(u, ed)
      else (u, Enew(WinGotoId(ed, u.previewWinId)));
    var ed2 := Termopen(ed1, cmds);
    if u1.terminalBufnr > 0 && BufExists(ed2, u1.terminalBufnr) then
      Step(Flag(Persist), u1.(terminalBufnr := -1), Bdelete(ed2, u1.terminalBufnr))
    else
      Step(Flag(Persist), u1, ed2)
  }

  /** The span calls for `spans` drawn on buffer `b`, in order. */
  function SpanCalls(b: BufNr, spans: seq<Span>): (calls: seq<SpanCall>)
    ensures |calls| == |spans|
    ensures forall i :: 0 <= i < |spans| ==> calls[i] == SpanCall(b, spans[i])
  {
    seq(|spans|, i requires 0 <= i < |spans| => SpanCall(b, spans[i]))
  }

  /** Whether `highlight` first deletes the match recorded for window `w`. */
  predicate HasOldMatch(u: Ui, w: WinId)
  {
    w in u.matchIds && u.matchIds[w] > 0
  }

  /**
   * `highlight`: deletes the line match recorded for the preview window,
   * adds a new one on `lineNr` and records it, then draws the spans.
   */
  function Highlight(u: Ui, ed: Editor, p: Previewer, b: BufNr): (r: Step)
    ensures r.outcome != Flag(None)
    ensures r.ui == u.(matchIds := r.ui.matchIds)
    ensures r.outcome.Thrown? ==> r.ui == u && r.ed == ed
  {
    var w := u.previewWinId;
    var deleted := if HasOldMatch(u, w) then MatchDelete(ed, u.matchIds[w], w) else W.Some(ed);
    match deleted
    case None => Step(Thrown(MatchNotFound(u.matchIds[w], w)), u, ed)
    case Some(ed1) =>
      var (u2, ed2) :=
        if p.LineNr() != 0 then (u.(matchIds := u.matchIds[w := ed1.next]), MatchAddPos(ed1, p.LineNr()))
        else (u, ed1);
      Step(Flag(Persist), u2, ed2.(spans := ed2.spans + SpanCalls(b, p.Highlights())))
  }

  /** The syntax step after filling a new buffer. */
  function ApplySyntax(ed: Editor, p: Previewer): Editor
  {
    if p.Syntax() != "" then SetSyntax(ed, Named(p.Syntax()))
    else if p.BufferPreviewer? then SetSyntax(ed, Detected)
    else ed
  }

  /** A new preview buffer (the current one) becomes a scratch buffer holding `text`, with its syntax. */
  function Fill(ed: Editor, p: Previewer, text: seq<string>): (r: Editor)
    ensures MatchesKept(ed, r) && (Valid(ed) ==> Valid(r))
    ensures r.wins == ed.wins && r.cur == ed.cur && r.names == ed.names && r.spans == ed.spans
  {
    var b := CurBuf(ed);
    ApplySyntax(ReplaceLines(SetBufType(ed, b, NoFile), b, text), p)
  }

  /**
   * `previewBuffer`: refuses an unusable previewer; otherwise opens or
   * focuses the preview window, then shows the named preview buffer,
   * filling it only when it is not listed yet, and highlights.
   */
  function PreviewBuffer(u: Ui, ed: Editor, p: Previewer, word: string, files: map<string, string>): (r: Step)
    requires !p.TermPreviewer?
    ensures r.outcome == Flag(None) <==> Rejected(p)
    ensures r.outcome == Flag(None) ==> r.ui == u && r.ed == ed
    ensures r.ui == u.(previewWinId := r.ui.previewWinId, matchIds := r.ui.matchIds)
  {
    if Rejected(p) then Step(Flag(None), u, ed)
    else
      var name := BufferName(ed, p, word);
      var listed := BufListedName(ed, name);
      var (u1, ed1) := FocusWindow(u, ed);
      if !listed then
        var ed2 := Edit(ed1, name);
        match Contents(ed2, p, files)
        case Failure(f) => Step(Thrown(f), u1, ed2)
        case Success(text) =>
          var ed3 := Fill(ed2, p, text);
          Highlight(u1, ed3, p, CurBuf(ed3))
      else
        var ed2 := SwitchBuffer(ed1, name);
        Highlight(u1, ed2, p, CurBuf(ed2))
  }

  /** Renders `p` in the preview window, by its kind. */
  function Render(u: Ui, ed: Editor, p: Previewer, word: string, files: map<string, string>): (r: Step)
    ensures p.TermPreviewer? ==> r.outcome == Flag(Persist)
    ensures r.outcome == Flag(None) <==> Rejected(p)
    ensures r.ui.previewedTarget == u.previewedTarget && r.ui.previewBufnrs == u.previewBufnrs
  {
    if p.TermPreviewer? then PreviewTerminal(u, ed, p.cmds) else PreviewBuffer(u, ed, p, word, files)
  }

  /** `jump`: puts the cursor on `lineNr` when there is one. */
  function Jump(ed: Editor, p: Previewer): (r: Editor)
    ensures MatchesKept(ed, r) && (Valid(ed) ==> Valid(r))
    ensures r.bufs == ed.bufs && r.cur == ed.cur && r.wins.Keys == ed.wins.Keys
  {
    if p.LineNr() != 0 then Cursor(ed, p.LineNr()) else ed
  }

  /** The request is for the target already shown: the preview toggles off. */
  predicate IsToggle(u: Ui, action: Json.Value)
    ensures IsToggle(u, action) <==> u.previewWinId > 0 && action == u.previewedTarget
  {
    Json.StringifyInjective(action, u.previewedTarget);
    u.previewWinId > 0 && Json.Stringify(action) == Json.Stringify(u.previewedTarget)
  }

  /**
   * `preview`: toggles the preview off when the same target is shown;
   * does nothing without a usable previewer; otherwise renders, jumps,
   * records the shown buffer and the target, and refocuses the caller's
   * window.  `previewer` is what the resolution service returned.
   */
  function Preview(u: Ui, ed: Editor, action: Json.Value, previewer: W.Option<Previewer>,
                   word: string, files: map<string, string>): (r: Step)
    ensures r.outcome == Flag(Persist) ==> r.ui.previewedTarget == action
    ensures r.outcome != Flag(Persist) ==>
              r.ui.previewedTarget == u.previewedTarget && r.ui.previewBufnrs == u.previewBufnrs
    ensures r.ui.terminalBufnr == u.terminalBufnr || r.ui.terminalBufnr == -1
  {
    var prevId := WinGetId(ed);
    if IsToggle(u, action) then
      var (u1, ed1) := Close(u, ed);
      Step(Flag(None), u1, ed1)
    else if previewer.None? then Step(Flag(None), u, ed)
    else
      var p := previewer.value;
      var s := Render(u, ed, p, word, files);
      if s.outcome != Flag(Persist) then s
      else
        var ed1 := Jump(s.ed, p);
        var b := CurBuf(ed1);
        Step(Flag(Persist),
             s.ui.(previewBufnrs := Add(s.ui.previewBufnrs, b), previewedTarget := action),
             WinGotoId(ed1, prevId))
  }
}

=== FILE: preview_ui.dfy ===
/**
 * The preview controller as the object the UI keeps: its five fields are
 * updated in place by `Close` and `Preview`, and each editor command is
 * issued in the order the controller issues it.  Every method is proved to
 * produce exactly the transition `PreviewSpec` describes, so the laws
 * proved about those transitions hold of the object.
 */
module PreviewController {

  import opened Editor
  import opened PreviewSpec
  import Json
  import W = Wrappers

  class PreviewUi {
    var previewWinId: int
    var terminalBufnr: int
    var previewedTarget: Json.Value
    var matchIds: map<int, int>
    var previewBufnrs: seq<BufNr>

    /** The controller's fields as a value. */
    function State(): Ui
      reads this
    {
      Ui(previewWinId, terminalBufnr, previewedTarget, matchIds, previewBufnrs)
    }

    constructor ()
      ensures State() == Initial
    {
      previewWinId := -1;
      terminalBufnr := -1;
      previewedTarget := Json.Obj([]);
      matchIds := map[];
      previewBufnrs := [];
    }

    /** `close`. */
    method Close(ed: Editor) returns (ed': Editor)
      modifies this
      ensures (State(), ed') == PreviewSpec.Close(old(State()), ed)
    {
      ed' := ed;
      if previewWinId > 0 {
        var saveId := WinGetId(ed');
        ed' := WinGotoId(ed', previewWinId);
        ed' := CloseWindow(ed');
        ed' := WinGotoId(ed', saveId);
        previewWinId := -1;
      }
      ed' := Sweep(ed', previewBufnrs);
    }

    /** `preview`: `previewer` is the answer of the previewer-resolution service. */
    method Preview(ed: Editor, action: Json.Value, previewer: W.Option<Previewer>,
                   word: string, files: map<string, string>) returns (outcome: Outcome, ed': Editor)
      modifies this
      ensures Step(outcome, State(), ed') == PreviewSpec.Preview(old(State()), ed, action, previewer, word, files)
    {
      var prevId := WinGetId(ed);
      if previewWinId > 0 && Json.Stringify(action) == Json.Stringify(previewedTarget) {
        ed' := Close(ed);
        return Flag(None), ed';
      }
      if previewer.None? {
        return Flag(None), ed;
      }
      var p := previewer.value;
      if p.TermPreviewer? {
        outcome, ed' := PreviewTerminal(ed, p.cmds);
      } else {
        outcome, ed' := PreviewBuffer(ed, p, word, files);
      }
      if outcome != Flag(Persist) {
        return;
      }
      ed' := Jump(ed', p);
      var b := CurBuf(ed');
      if b !in previewBufnrs {
        previewBufnrs := previewBufnrs + [b];
      }
      previewedTarget := action;
      ed' := WinGotoId(ed', prevId);
    }

    /** `previewTerminal`. */
    method PreviewTerminal(ed: Editor, cmds: seq<string>) returns (outcome: Outcome, ed': Editor)
      modifies this
      ensures Step(outcome, State(), ed') == PreviewSpec.PreviewTerminal(old(State()), ed, cmds)
    {
      if previewWinId < 0 {
        ed' := OpenPreviewWindow(ed);
        previewWinId := WinGetId(ed');
      } else {
        ed' := WinGotoId(ed, previewWinId);
        ed' := Enew(ed');
      }
      ed' := Termopen(ed', cmds);
      // the previous terminal buffer goes only after the new one is open
      if terminalBufnr > 0 && BufExists(ed', terminalBufnr) {
        ed' := Bdelete(ed', terminalBufnr);
        terminalBufnr := -1;
      }
      outcome := Flag(Persist);
    }

    /** `previewBuffer`. */
    method PreviewBuffer(ed: Editor, p: Previewer, word: string, files: map<string, string>)
      returns (outcome: Outcome, ed': Editor)
      requires !p.TermPreviewer?
      modifies this
      ensures Step(outcome, State(), ed') == PreviewSpec.PreviewBuffer(old(State()), ed, p, word, files)
    {
      if Rejected(p) {
        return Flag(None), ed;
      }
      var name := BufferName(ed, p, word);
      var listed := BufListedName(ed, name);
      if previewWinId < 0 {
        ed' := OpenPreviewWindow(ed);
        previewWinId := WinGetId(ed');
      } else {
        ed' := WinGotoId(ed, previewWinId);
      }
      if !listed {
        ed' := Edit(ed', name);
        var text := Contents(ed', p, files);
        if text.Failure? {
          return Thrown(text.error), ed';
        }
        var b := CurBuf(ed');
        ed' := SetBufType(ed', b, NoFile);
        ed' := ReplaceLines(ed', b, text.value);
        ed' := ApplySyntax(ed', p);
      } else {
        ed' := SwitchBuffer(ed', name);
      }
      var b := CurBuf(ed');
      outcome, ed' := Highlight(ed', p, b);
    }

    /** `highlight`: replaces the preview window's line match, then draws the spans on `b`. */
    method Highlight(ed: Editor, p: Previewer, b: BufNr) returns (outcome: Outcome, ed': Editor)
      modifies this
      ensures Step(outcome, State(), ed') == PreviewSpec.Highlight(old(State()), ed, p, b)
    {
      var w := previewWinId;
      ed' := ed;
      if w in matchIds && matchIds[w] > 0 {
        var deleted := MatchDelete(ed', matchIds[w], w);
        if deleted.None? {
          return Thrown(MatchNotFound(matchIds[w], w)), ed;
        }
        ed' := deleted.value;
      }
      if p.LineNr() != 0 {
        var id := ed'.next;  // the id matchaddpos hands out
        ed' := MatchAddPos(ed', p.LineNr());
        matchIds := matchIds[w := id];
      }
      ed' := DrawSpans(ed', b, p.Highlights());
      outcome := Flag(Persist);
    }
  }

  /** The sweep of `close`: `bdelete!` each tracked buffer that is still listed, in order. */
  method Sweep(ed: Editor, tracked: seq<BufNr>) returns (ed': Editor)
    ensures ed' == DeleteListed(ed, tracked)
  {
    DeleteListedNone(ed);
    ed' := ed;
    for i := 0 to |tracked|
      invariant ed' == DeleteListed(ed, tracked[..i])
    {
      DeleteListedStep(ed, tracked[..i], tracked[i]);
      if BufListed(ed', tracked[i]) {
        ed' := Bdelete(ed', tracked[i]);
      }
      assert tracked[..i + 1] == tracked[..i] + [tracked[i]];
    }
    assert tracked[..|tracked|] == tracked;
  }

  /** The span loop of `highlight`: one span call per highlight, in order. */
  method DrawSpans(ed: Editor, b: BufNr, spans: seq<Span>) returns (ed': Editor)
    ensures ed' == ed.(spans := ed.spans + SpanCalls(b, spans))
  {
    ed' := ed;
    for i := 0 to |spans|
      invariant ed' == ed.(spans := ed.spans + SpanCalls(b, spans[..i]))
    {
      assert SpanCalls(b, spans[..i + 1]) == SpanCalls(b, spans[..i]) + [SpanCall(b, spans[i])];
      ed' := DrawSpan(ed', b, spans[i]);
    }
    assert spans[..|spans|] == spans;
  }
}

=== FILE: text.dfy ===
/**
 * Splitting decoded file text into buffer lines, as JavaScript's
 * `String.prototype.split` does with a one-character separator: every
 * separator ends a line, so the result always has one more element than
 * there are separators, and the text before the first separator, between
 * two separators and after the last one all become lines (possibly empty).
 */
module Text {

  function Split(s: string, sep: char): (lines: seq<string>)
    ensures |lines| >= 1
    ensures forall i :: 0 <= i < |lines| ==> sep !in lines[i]
    decreases |s|
  {
    if s == [] then [""]
    else
      var rest := Split(s[1..], sep);
      if s[0] == sep then [""] + rest
      else [[s[0]] + rest[0]] + rest[1..]
  }

  /** The inverse of Split: lines glued back together with the separator. */
  function Join(lines: seq<string>, sep: char): string
  {
    if lines == [] then ""
    else if |lines| == 1 then lines[0]
    else lines[0] + [sep] + Join(lines[1..], sep)
  }

  function Count(s: string, c: char): nat
  {
    if s == [] then 0 else (if s[0] == c then 1 else 0) + Count(s[1..], c)
  }

  /** Splitting loses nothing: joining the lines gives the text back. */
  lemma {:induction false} JoinSplit(s: string, sep: char)
    ensures Join(Split(s, sep), sep) == s
    decreases |s|
  {
    if s != [] {
      var rest := Split(s[1..], sep);
      JoinSplit(s[1..], sep);
      if s[0] == sep {
        assert Join([""] + rest, sep) == "" + [sep] + Join(rest, sep);
        assert s == [s[0]] + s[1..];
      } else if |rest| == 1 {
        assert s == [s[0]] + s[1..];
      } else {
        var lines := [[s[0]] + rest[0]] + rest[1..];
        assert lines[1..] == rest[1..];
        assert Join(rest, sep) == rest[0] + [sep] + Join(rest[1..], sep);
        assert s == [s[0]] + s[1..];
      }
    }
  }

  /** One line per separator, plus one. */
  lemma {:induction false} SplitCount(s: string, sep: char)
    ensures |Split(s, sep)| == Count(s, sep) + 1
    decreases |s|
  {
    if s != [] {
      SplitCount(s[1..], sep);
    }
  }
}

=== FILE: wrappers.dfy ===
/** Small optional-value and result types shared by the other modules. */
module Wrappers {

  datatype Option<+T> = None | Some(value: T)

  datatype Result<+T, +E> = Success(value: T) | Failure(error: E)
}
